=== FILE: README.md ===
# callie macro tracker — a Dafny model of its text and number handling

callie is a Streamlit app that logs meals with their macronutrients to an Airtable base. A
language model can estimate the macros from a description of the meal. The app then shows the
day's totals against daily goals. The repository holds two versions of the app:

- `callie.py` has five macros and text inputs. It pre-fills the form from the model's reply and
  has an update form for logged meals.
- `macro_tracker_app.py` is the simpler variant. It has four macros, number inputs, and goals
  stored in Airtable.

This project models the deterministic logic inside that glue code, as pure functions over
immutable datatypes:

| module | file | what it models |
|---|---|---|
| `Wrappers` | wrappers.dfy | `Option` |
| `Chars` | chars.dfy | whitespace and digit classes, ASCII lower-casing, `str.strip()` |
| `Decimal` | decimal.dfy | `int()` of a digit run, the fixed-point part of `float()`, `str()` of an int |
| `ResponseParser` | response_parser.dfy | `parse_openai_response`: six `re.search` calls with `re.IGNORECASE` |
| `ReplyFormat` | reply_format.dfy | the reply format the model is asked for, and the proof that the parser reads it back |
| `Sums` | sums.dfy | a column sum over rows, and its append and permutation laws |
| `Records` | records.dfy | Airtable field dictionaries, `fields.get` with a default, and the merge an update performs |
| `Meals` | meals.dfy | callie's saved fields, fetched rows and daily totals |
| `MealEntry` | meal_entry.dfy | callie's "Log Your Meals" form: `parse_number`, the add decision, pre-filling, the quick-add preset |
| `MealUpdate` | meal_update.dfy | callie's "Update a Logged Meal" form: the update dictionary and the submit handler |
| `Progress` | progress.dfy | the gauge percentage, the "left"/"over" caption, and `display_progress` |
| `TrackerApp` | tracker_app.dfy | macro_tracker_app.py: add check, rows, totals, goal defaults, goal record, dashboard |

Numbers are exact `real`s. The parser's numbers are `nat`s, because its patterns only admit
unsigned digit runs. Fetched records are an input sequence, and the outcome of a record lookup
is a parameter.

Where the code and its documentation differ, the model follows the code. One case matters.
The parser's description speaks of the leftmost occurrence of each label. `re.search` actually
reports the leftmost position at which the whole pattern matches. So a label whose digits or
unit do not fit is skipped, and a later occurrence of the same label can still be read. For
example, `Protein: 4.5g, Protein: 30g` gives protein 30. `ResponseParser.SearchNumber` states
exactly this through `IsLeftmostNumber`.

Two more behaviours of the code are stated as lemmas:

- A meal name of spaces is accepted. The add check only tests the name for being empty
  (`MealEntry.SpaceNameSaved`).
- callie never writes the `meal_id` column, so a record callie saves carries no meal_id of its
  own (`Meals.SaveThenFetch`). A `meal_id` the base itself fills in is read like any other
  column. The update form looks records up by Airtable's own record id.

## Model

| member | source | states |
|---|---|---|
| Chars.Lower | callie.py:227-249 | the `re.IGNORECASE` comparison: an ASCII capital becomes its small letter, and every other character is left alone |
| Chars.Trim | callie.py:368 | `str.strip()`: the result has no whitespace at either end and is the input with only whitespace cut from each end |
| Chars.TrimUnique | callie.py:368 | whitespace around a trimmed core strips to exactly that core |
| Chars.TrimTrimmed | callie.py:368 | a string without surrounding whitespace strips to itself |
| Decimal.ParseDecimal | callie.py:371 | `float()` on the fixed-point grammar: defined exactly on an optional sign plus a digits-with-optional-point numeral; a negative value needs a leading minus |
| Decimal.ParseSigned | callie.py:371-374 | a `-` in front of an unsigned numeral negates its value, a `+` keeps it, and an unsigned numeral reads as itself |
| Decimal.DigitsValue | callie.py:233-249 | `int()` of a `\d+` capture: the value of a digit string is below ten to the power of its length (its partner `ShowNat` reads back as the number it shows) |
| Decimal.ShowNat | callie.py:349-357 | `str()` of a non-negative int: digits only, no leading zero, and its value is the number |
| Decimal.ParseShowInt | callie.py:536 | what `str()` writes for any int, sign included, `float()` reads back as that int |
| Decimal.ParseWithPoint | callie.py:371 | a numeral `<digits>.<digits>` reads as its integer part plus the fraction digits over ten to the power of their count |
| ResponseParser.SearchNumber | callie.py:231-249 | one numeric `re.search`: the number at the leftmost position where the whole pattern matches, and `None` when the label is absent |
| ResponseParser.SearchMeal | callie.py:227-229 | the meal search: `""` when `Meal:` is absent; otherwise the name is trimmed and holds no comma |
| ResponseParser.ParseResponse | callie.py:215-252 | the parser is total; each field is the leftmost whole-pattern match of its own regex; a field whose label is absent is `None`, and the name `""` |
| ResponseParser.LeftmostNumberUnique | callie.py:231-233 | the leftmost-match property determines the search result |
| ResponseParser.SearchFindsFirst | callie.py:231-233 | a match with no match before it is what the search reports |
| ResponseParser.SearchMealFindsFirst | callie.py:227-229 | a meal match with none before it is what the meal search reports |
| ResponseParser.NumberAt | callie.py:231-249 | soundness against the regex: a number found at a position comes from a split the pattern admits there, and it is the whole digit run |
| ResponseParser.MealAt | callie.py:227-229 | the meal pattern matches at a position iff `meal:` starts there, up to case; the name it gives is stripped and holds no comma |
| ResponseParser.Leftmost | callie.py:227-249 | the scan `re.search` performs: nothing iff no position in range matches, otherwise the result at a matching position with no match before it |
| ResponseParser.PatternMatchesNumberAt | callie.py:231-249 | completeness against the regex: every split the pattern admits is found, with the greedy `\d+` capture |
| ResponseParser.MealPatternMatchesMealAt | callie.py:227-229 | every split the meal pattern admits (label, whitespace, a lazy group ending at a comma or the end) yields the same stripped name |
| ResponseParser.SearchUpToCase | callie.py:231-249 | `re.IGNORECASE`: texts that differ only in letter case give the same number |
| ResponseParser.NumbersIgnoreCase | callie.py:231-249 | lower-casing the reply changes none of the five numbers |
| ResponseParser.SearchFindsNothing | callie.py:221-225 | with no matching position a field keeps its initial `None` |
| ResponseParser.DecimalLosesField | callie.py:235-237 | `Protein: 40.5g` gives no protein, because `g` must follow the digits directly |
| ResponseParser.SpacedUnitLosesField | callie.py:235-237 | `Protein: 40 g` gives no protein either |
| ReplyFormat.ItemFound | callie.py:231-249 | an item whose label clashes with every label before it is what the search for its field reports, whatever follows it |
| ReplyFormat.ReplyReadsItem | callie.py:231-249 | in a reply of `, Label: <digits><unit>` items, every item is read under its own field |
| ReplyFormat.ReplyOmitsField | callie.py:221-225 | a field the reply carries no item for stays `None` |
| ReplyFormat.ReplyReadsName | callie.py:227-229 | a trimmed name on one line and without a comma comes back unchanged |
| ReplyFormat.PromptReplyRoundTrip | callie.py:215-252 | a reply in the prompt's format parses back to exactly the values it was written from |
| ReplyFormat.MissingCholesterolLeavesOthers | callie.py:231-249 | each field is searched on its own: dropping the Cholesterol item gives `None` for it and every other value unchanged |
| ReplyFormat.PromptExample | openai_api.py:26 | the prompt's example reply parses to `("Grilled Chicken Salad", 350, 40, 15, 80, 20)` |
| Sums.SumAppend | callie.py:421-425 | a column sum over two batches of rows is the sum of the two sums |
| Sums.SumPermutation | callie.py:421-425 | a column sum does not depend on the order of the rows |
| Sums.SumNonNegative | callie.py:421-425 | a column of non-negative values sums to a non-negative total |
| Records.NumberOr | callie.py:132-136 | `fields.get(key, default)` on a numeric column: an absent column gives the default, a stored number is returned as is |
| Records.TextOrEmpty | callie.py:129-131 | `fields.get(key, '')` on a text column |
| Records.DateOrNone | callie.py:130 | a missing date reads as no date |
| Records.ApplyUpdate | callie.py:568 | an Airtable update replaces the patched columns and keeps every other column |
| Meals.SaveFields | callie.py:87-103 | the saved record has all seven columns and no meal id; every amount is a number, and a missing one is 0 |
| Meals.RowOf | callie.py:126-137 | a fetched record's missing meal id or name becomes `""`, a missing date no date, and a missing amount 0 |
| Meals.SaveThenFetch | callie.py:87-137 | a saved meal reads back with its day, name and amounts, missing amounts as 0, and an empty meal id |
| Meals.Totals | callie.py:421-425 | an empty day totals all zeros |
| Meals.TotalsPermutation | callie.py:421-425 | the daily totals do not depend on the order of the records |
| Meals.TotalsAppend | callie.py:421-425 | totals over two batches add up column by column |
| Meals.TotalsAddMeal | callie.py:421-425 | one more meal adds exactly its own amounts to the totals |
| Meals.TotalsNonNegative | callie.py:421-425 | rows with non-negative amounts give non-negative totals |
| MealEntry.ParseNumber | callie.py:366-377 | a blank input gives 0; otherwise the trimmed input is accepted iff `float()` reads it as a non-negative number, which is returned unchanged |
| MealEntry.ParseNumberIgnoresPadding | callie.py:368 | whitespace around an input does not change what it reads as |
| MealEntry.ParseNumberDigits | callie.py:369-374 | a digit string reads as its value |
| MealEntry.ParseNumberRefusesNegative | callie.py:372-377 | a minus sign in front of any numeral worth more than zero is refused, fractions included |
| MealEntry.MinusHalfRefused | callie.py:371-377 | `-0.5` is refused |
| MealEntry.Complaint | callie.py:375-377 | a refused input adds exactly the one message naming its label; an accepted one adds none |
| MealEntry.Problems | callie.py:360-383 | one error per refused amount, plus "Meal name is required." first exactly when the name is empty; the message for each amount is present iff that amount is refused; the messages come in the order name, calories, protein, fat, cholesterol, carbohydrates |
| MealEntry.InOrderUnique | callie.py:360-383 | two error lists in that order holding the same messages are the same list, so order and membership together fix what is shown |
| MealEntry.AddMeal | callie.py:359-397 | saved iff the name is not empty and all five amounts read; a saved meal reads back with its name, date and exactly the amounts `parse_number` read, all non-negative; a refusal lists the name message iff the name is empty and each amount's message iff that amount is refused |
| MealEntry.Prefill | callie.py:286-295 | a failed model request leaves the form alone; otherwise the name comes from the reply |
| MealEntry.ParseShown | callie.py:288-292 | a pre-filled amount reads back as the reply's number, and a missing one as 0 |
| MealEntry.PrefillThenAdd | callie.py:286-397 | a named reply submitted as pre-filled saves exactly the reply's amounts, the missing ones as 0 |
| MealEntry.ExampleReplyLogged | openai_api.py:26 | the prompt's example reply, through the form, logs Grilled Chicken Salad with 350/40/15/80/20 |
| MealEntry.ProteinShakeSaves | callie.py:315-321 | the "Protein shake" preset saves with its fractional fat amount of 1.5 |
| MealEntry.EmptyFormNeedsName | callie.py:362-364 | a cleared form is refused for the missing name alone |
| MealEntry.SpaceNameSaved | callie.py:362 | a name of spaces passes the empty-name check |
| MealEntry.NegativeAmountRefused | callie.py:372-383 | a negative amount in any of the five inputs, fractions included, blocks the save and is reported under that input's label |
| MealUpdate.Read | callie.py:544-558 | a numeric update input is blank, unreadable, or an amount exactly as `float()` of the stripped input decides |
| MealUpdate.Put | callie.py:544-558 | a readable input stores its number under its column; a blank or unreadable one leaves the dictionary as it was; no other column changes, and no `None` is ever stored |
| MealUpdate.NameEntry | callie.py:531-532 | the name enters the update only when it is not blank |
| MealUpdate.Complaint | callie.py:536-540 | an unreadable input adds exactly the one message naming its field; any other input adds none |
| MealUpdate.Assemble | callie.py:530-558 | the update holds only the update columns and never `None`; each column carries its reading; one error per unreadable input, and the message naming a field is present iff that field is unreadable |
| MealUpdate.BuildPatch | callie.py:530-558 | the same facts stated for the form's raw inputs |
| MealUpdate.UpdateMealAsWritten | callie.py:512-568 | the handler as written: blank id refused before lookup; "not found" iff the lookup gave 404, a fetch failure with its status iff it gave another error; never refuses for unreadable numbers; updates iff the record is found and the dictionary is not empty, and then still shows every unreadable-number error; nothing to update iff found with an empty dictionary |
| MealUpdate.AsWrittenSendsPartialUpdate | callie.py:544-568 | calories "abc" with protein "10" reports the calories error and still updates the protein |
| MealUpdate.UpdateMeal | callie.py:512-568 | the corrected handler: refused iff some filled-in number is unreadable; a fetch failure with its status iff the lookup gave an error other than 404; updates iff all read and the dictionary is not empty; nothing to update iff all read and it is empty |
| MealUpdate.IntendedRefusesPartialUpdate | callie.py:560-562 | the corrected handler refuses the same form |
| MealUpdate.HandlersAgreeOnReadableForms | callie.py:560-568 | when every filled-in number reads, both handlers agree |
| MealUpdate.ColumnAfterUpdate | callie.py:544-568 | after the update a numeric column holds the typed number if there was one, else its old value |
| MealUpdate.UpdateThenFetch | callie.py:529-568 | after the update the record reads back with the new name and amounts where typed, and everything else unchanged |
| MealUpdate.ReadShowInt | callie.py:536 | any integer, negative or not, reads back as itself |
| MealUpdate.UpdateKeepsNegative | callie.py:544-546 | unlike adding, an update stores a negative integer as typed |
| MealUpdate.ReadNegative | callie.py:536 | a minus sign in front of any numeral reads as the negated number, fractions included |
| MealUpdate.CaloriesStored | callie.py:544-546 | calories that read as a number are in the update as exactly that number |
| MealUpdate.UpdateStoresMinusTwoAndAHalf | callie.py:544-546 | calories of `-2.5` are stored as -2.5 |
| Progress.GaugePercent | callie.py:169 | `plot_gauge`'s `percent` local, which the figure does not use: at most 100 and 0 for a zero goal; with a positive goal it is 100 iff intake reaches the goal, and the exact ratio below it |
| Progress.StandingOf | callie.py:449-462 | the caption says "over" iff intake exceeds the goal, by the positive difference; otherwise it says what is left, which is non-negative |
| Progress.StandingMatchesGauge | callie.py:449-454 | over the goal means a percentage of 100; a percentage below 100 means something is left |
| Progress.GaugeFor | callie.py:445-460 | a gauge keeps the title, unit, intake and goal its figure is drawn from, and holds `GaugeShows`: a computed percentage capped at 100, 0 for a zero goal, 100 iff the goal is reached, the exact ratio below it; a caption "over" iff intake exceeds the goal, by the excess, otherwise the non-negative amount left |
| Progress.Dashboard | callie.py:427-460 | five gauges in the order Calories/kcal, Protein/g, Fat/g, Cholesterol/mg, Carbohydrates/g, each holding that total and goal and each showing `GaugeShows` |
| Progress.GaugeShowsDetermines | callie.py:445-460 | with a positive goal, any gauge showing `GaugeShows` has exactly the computed percentage and caption |
| Progress.CaloriesOverExample | callie.py:427-454 | 1800 kcal against the fixed 1700 goal gives a percentage of 100 and a caption of 100 over |
| Progress.LeftWhenUnder | callie.py:449-460 | a gauge with nothing eaten against a goal that is not negative has a percentage of 0 and shows the whole goal left |
| Progress.NothingEatenAllLeft | callie.py:437-460 | with nothing eaten and goals that are not negative, all five gauges have a percentage of 0 and show their whole goals left |
| Progress.EmptyDayExample | callie.py:421-460 | an empty day shows a calorie gauge at 0 kcal, a percentage of 0, and all 1700 kcal left |
| Progress.EmptyDayAllLeft | callie.py:421-460 | an empty day shows every one of the fixed goals as fully left |
| Progress.DisplayProgress | macro_tracker_app.py:155-163 | shows the label, unit, intake and goal it was given; a percentage iff the goal is positive, and then the exact ratio, unbounded; the bar never exceeds 1, is 0 without a goal, and is full iff the goal is reached |
| Progress.BarMatchesGauge | callie.py:158-169 | for any title and unit and a positive goal, the bar is `plot_gauge`'s capped percentage as a fraction |
| Progress.PercentageUnbounded | macro_tracker_app.py:157-160 | three times the goal shows 300 percent while the bar stays full |
| TrackerApp.SaveFields | macro_tracker_app.py:61-71 | the saved record has exactly the six columns |
| TrackerApp.RowOf | macro_tracker_app.py:94-104 | the row keeps Airtable's record id; each column reads on its own: a stored meal, date or amount as itself, a missing meal as `""`, a missing date as none, a missing amount as 0 |
| TrackerApp.MissingAmountZeroAlone | macro_tracker_app.py:100-103 | taking one amount out of a record zeroes that amount alone and leaves the rest of the row as it was |
| TrackerApp.AddMeal | macro_tracker_app.py:230-236 | saved iff the name is not empty and all four amounts are non-negative; otherwise the one fixed error |
| TrackerApp.AddThenFetch | macro_tracker_app.py:61-104 | a saved meal reads back exactly as entered, under its record id |
| TrackerApp.VariantsAgree | macro_tracker_app.py:231 | for whole non-negative amounts both apps decide a save on the name alone |
| TrackerApp.Totals | macro_tracker_app.py:248-251 | an empty day totals all zeros |
| TrackerApp.TotalsPermutation | macro_tracker_app.py:248-251 | the totals do not depend on row order |
| TrackerApp.TotalsAddMeal | macro_tracker_app.py:248-251 | one more meal adds exactly its own amounts |
| TrackerApp.LoadGoals | macro_tracker_app.py:117-134 | each goal reads on its own: a stored goal as itself, a missing one as its default (2000, 250, 70, 150); no record or a failed read gives all defaults and keeps the remembered id |
| TrackerApp.MissingGoalDefaultsAlone | macro_tracker_app.py:125-128 | taking one goal out of the record resets that goal alone to its default and leaves the other three and the remembered id as they were |
| TrackerApp.InitialGoalRecord | macro_tracker_app.py:41-55 | the default goals record is created exactly when the Goals table was read and found empty |
| TrackerApp.GoalsWriteThenLoad | macro_tracker_app.py:117-149 | goals written to the record read back as themselves |
| TrackerApp.InitialGoalsLoad | macro_tracker_app.py:41-134 | the created default record loads as the same defaults an empty table gives |
| TrackerApp.UpdateGoals | macro_tracker_app.py:136-149 | refused iff no goals record id is known; otherwise all four goals of that record are overwritten |
| TrackerApp.Dashboard | macro_tracker_app.py:248-265 | four displays in the order Calories/kcal, Carbohydrates/g, Fat/g, Protein/g, each showing that macro's daily total against its goal; "Goal not set" exactly for a goal of 0 or less, no bar above full |
| TrackerApp.GoalsReachedFillBars | macro_tracker_app.py:248-265 | when every total reaches its positive goal, all four bars are full |

## Left out

- Streamlit presentation is not modelled. This covers forms, widgets, session state, reruns,
  metric and progress rendering, Plotly figures, CSV export and logging. Rendering is not logic.
  A callie gauge is kept as what its figure is drawn from: the intake, shown with its unit on an
  axis from 0 to the goal, and the title. The percentage `plot_gauge` computes is modelled as
  computed, although the figure never uses it.
- Airtable I/O and caching are not modelled: the `create`, `all`, `get` and `update` calls, the
  `IS_SAME` date formula, the `-date` sort and `cache_data`. They are remote I/O. Fetched records
  are an input sequence, and a lookup's outcome is the `MealUpdate.Lookup` parameter.
- A write that raises is not modelled. The app reports the exception, which is I/O failure.
- The whole of openai_api.py is a network client. A failed request is the `None` case of
  `MealEntry.Prefill`. The prompt's example reply is the input of `ReplyFormat.PromptExample` and
  `MealEntry.ExampleReplyLogged`.
- Python's `float()` is modelled only on fixed-point numerals with an optional sign. Exponents,
  `inf`, `nan`, digit-group underscores and non-ASCII digits are out. So is binary
  floating-point rounding, since numbers are exact reals. The model therefore does not show
  that `nan` passes the `< 0` check.
- `.0f` and `.1f` formatting of the captions and metrics is not modelled; it is display only.
- Dates are carried as days. Their `%Y-%m-%d` spelling, pandas' parsing of it back, and the
  GMT+8 "today" are out, because they are library and clock behaviour.
- The Meal pattern is modelled on single-line replies. How `.` and `$` treat newlines is left
  out. The round-trip lemmas therefore ask for a meal name without a line break.
- Records.TextOrEmpty: a value of another type in a text column (a numeric autonumber in
  `meal_id`, say) reads as `""`. The source's `.get` would return that value itself.
- Letter case is folded for ASCII only, and `\d` is ASCII digits only. Python's Unicode case
  folding (for example `ſ` matching `s`) and Unicode digits are left out.
- Records.NumberOr: a value of another type in a numeric column reads as the default. The
  source would pass that value through to the sum.
- A lookup that raises something other than an HTTP error is not modelled. The source lets it
  escape the handler.
- The two unfinished quick-add buttons ("Common Meal 2" and "Common Meal 3") only fill a name.
  `MealEntry.Prefill` and `AddMeal` cover that already.

## Findings

| source | as written | input that shows it | evidently intended | confidence | as-written member | corrected member |
|---|---|---|---|---|---|---|
| callie.py:560-562 | the guard `any(v is None for v in update_fields.values())` can never fire: an unreadable number is never put into the dictionary | Meal ID `rec1`, Calories `abc`, Protein `10`, other inputs blank: the error "Calories must be a number." is shown, yet `{protein_g: 10.0}` is sent | any unreadable numeric input stops the update, as the comment and the warning text say | not executed | MealUpdate.UpdateMealAsWritten, MealUpdate.AsWrittenSendsPartialUpdate | MealUpdate.UpdateMeal, MealUpdate.IntendedRefusesPartialUpdate |

=== FILE: chars.dfy ===
/** Character classes and whitespace trimming as Python's `str` methods and `re` classes see them. */
module Chars {

  /** Python's `str.isspace()`, which is also the set `str.strip()` removes and the regex class
      `\s` matches on `str` patterns: the ASCII controls 9-13 and 28-31, the space, and the
      Unicode separators. */
  predicate IsSpace(c: char) {
    || c == ' '
    || ('\t' <= c <= '\r')
    || ('\U{1C}' <= c <= '\U{1F}')
    || c == '\U{85}' || c == '\U{A0}' || c == '\U{1680}'
    || ('\U{2000}' <= c <= '\U{200A}')
    || c == '\U{2028}' || c == '\U{2029}' || c == '\U{202F}' || c == '\U{205F}' || c == '\U{3000}'
  }

  /** An ASCII decimal digit (the regex class `\d` restricted to ASCII). */
  predicate IsDigit(c: char) {
    '0' <= c <= '9'
  }

  function DigitValue(c: char): (d: nat)
    requires IsDigit(c)
    ensures d < 10
  {
    (c as int) - ('0' as int)
  }

  /** ASCII lower-casing: the case folding that `re.IGNORECASE` applies to the labels. */
  function Lower(c: char): (r: char)
    ensures 'A' <= c <= 'Z' ==> 'a' <= r <= 'z' && r as int == c as int + 32
    ensures !('A' <= c <= 'Z') ==> r == c
  {
    if 'A' <= c <= 'Z' then ((c as int) + 32) as char else c
  }

  lemma LowerKeepsClasses(c: char)
    ensures Lower(Lower(c)) == Lower(c)
    ensures IsSpace(Lower(c)) == IsSpace(c)
    ensures IsDigit(Lower(c)) == IsDigit(c)
  {
  }

  predicate AllSpace(s: string) {
    forall i :: 0 <= i < |s| ==> IsSpace(s[i])
  }

  predicate AllDigits(s: string) {
    forall i :: 0 <= i < |s| ==> IsDigit(s[i])
  }

  /** The first index at or after `from` whose character fails `keep`; the end of a greedy
      `keep*` run that starts at `from`. */
  function SkipWhile(s: string, from: nat, keep: char -> bool): (r: nat)
    requires from <= |s|
    decreases |s| - from
    ensures from <= r <= |s|
    ensures forall i :: from <= i < r ==> keep(s[i])
    ensures r == |s| || !keep(s[r])
  {
    if from < |s| && keep(s[from]) then SkipWhile(s, from + 1, keep) else from
  }

  /** Any index that bounds a `keep` run and stops at a failing character is the one SkipWhile finds. */
  lemma SkipWhileUnique(s: string, from: nat, keep: char -> bool, q: nat)
    requires from <= q <= |s|
    requires forall i :: from <= i < q ==> keep(s[i])
    requires q == |s| || !keep(s[q])
    ensures SkipWhile(s, from, keep) == q
  {
  }

  /** The last index down to `lo` below which the characters stop satisfying `keep`: the start
      of the `keep` run that ends at `hi`. */
  function SkipBackWhile(s: string, lo: nat, hi: nat, keep: char -> bool): (r: nat)
    requires lo <= hi <= |s|
    decreases hi
    ensures lo <= r <= hi
    ensures forall i :: r <= i < hi ==> keep(s[i])
    ensures r == lo || !keep(s[r - 1])
  {
    if lo < hi && keep(s[hi - 1]) then SkipBackWhile(s, lo, hi - 1, keep) else hi
  }

  lemma SkipBackWhileUnique(s: string, lo: nat, hi: nat, keep: char -> bool, q: nat)
    requires lo <= q <= hi <= |s|
    requires forall i :: q <= i < hi ==> keep(s[i])
    requires q == lo || !keep(s[q - 1])
    ensures SkipBackWhile(s, lo, hi, keep) == q
  {
  }

  /** A string with no whitespace at either end. */
  predicate IsTrimmed(s: string) {
    |s| == 0 || (!IsSpace(s[0]) && !IsSpace(s[|s| - 1]))
  }

  /** Python's `str.strip()`: `s` is leading whitespace, the result, then trailing whitespace. */
  function Trim(s: string): (r: string)
    ensures IsTrimmed(r)
    ensures exists i, j :: 0 <= i <= j <= |s| && r == s[i..j] && AllSpace(s[..i]) && AllSpace(s[j..])
  {
    var i := SkipWhile(s, 0, IsSpace);
    var j := SkipBackWhile(s, i, |s|, IsSpace);
    s[i..j]
  }

  /** The decomposition in Trim's contract is the only one: whitespace around a trimmed core
      strips to exactly that core. */
  lemma TrimUnique(a: string, m: string, b: string)
    requires AllSpace(a) && AllSpace(b) && IsTrimmed(m)
    ensures Trim(a + m + b) == m
  {
    var s := a + m + b;
    if |m| == 0 {
      SkipWhileUnique(s, 0, IsSpace, |s|);
    } else {
      SkipWhileUnique(s, 0, IsSpace, |a|);
      SkipBackWhileUnique(s, |a|, |s|, IsSpace, |a| + |m|);
      assert s[|a|..|a| + |m|] == m;
    }
  }

  /** A string with no whitespace at either end strips to itself. */
  lemma TrimTrimmed(m: string)
    requires IsTrimmed(m)
    ensures Trim(m) == m
  {
    TrimUnique("", m, "");
    assert "" + m + "" == m;
  }

  /** Whitespace in front of a string does not change what it strips to. */
  lemma TrimSkipsLeadingSpace(w: string, s: string)
    requires AllSpace(w)
    ensures Trim(w + s) == Trim(s)
  {
    var i := SkipWhile(s, 0, IsSpace);
    var j := SkipBackWhile(s, i, |s|, IsSpace);
    assert w + s == (w + s[..i]) + s[i..j] + s[j..];
    TrimUnique(w + s[..i], s[i..j], s[j..]);
  }
}

=== FILE: decimal.dfy ===
/** Decimal numerals: reading ASCII digit strings as numbers (Python's `int()` on a `\d+` match
    and the fixed-point subset of `float()`), and writing numbers back (Python's `str()` of an int). */
module Decimal {
  import opened Wrappers
  import opened Chars

  /** The value of a digit string read as a base-10 numeral; leading zeros are allowed. */
  function DigitsValue(ds: string): (v: nat)
    requires AllDigits(ds)
    ensures v < Pow10(|ds|)
  {
    if |ds| == 0 then 0
    else
      var w := DigitsValue(ds[..|ds| - 1]);
      assert w * 10 + DigitValue(ds[|ds| - 1]) < Pow10(|ds| - 1) * 10 by {
        assert w + 1 <= Pow10(|ds| - 1);
        assert (w + 1) * 10 <= Pow10(|ds| - 1) * 10;
      }
      w * 10 + DigitValue(ds[|ds| - 1])
  }

  function DigitChar(d: nat): (c: char)
    requires d < 10
    ensures IsDigit(c) && DigitValue(c) == d
  {
    (('0' as int) + d) as char
  }

  function Pow10(k: nat): (p: nat)
    ensures p >= 1
  {
    if k == 0 then 1 else 10 * Pow10(k - 1)
  }

  /** Python's `str(n)` for a non-negative int: digits only, no leading zero, and it reads back as `n`. */
  function ShowNat(n: nat): (s: string)
    decreases n
    ensures |s| > 0 && AllDigits(s)
    ensures DigitsValue(s) == n
    ensures |s| > 1 ==> s[0] != '0'
  {
    if n < 10 then [DigitChar(n)] else ShowNat(n / 10) + [DigitChar(n % 10)]
  }

  /** Python's `str(i)` for any int: a minus sign in front of negative values. */
  function ShowInt(i: int): (s: string)
    ensures |s| > 0
    ensures i < 0 <==> s[0] == '-'
  {
    if i < 0 then "-" + ShowNat(-i) else ShowNat(i)
  }

  /** The unsigned numerals accepted: `D+`, `D+.`, `D+.D+` or `.D+`. */
  ghost predicate UnsignedSyntax(u: string) {
    || (|u| > 0 && AllDigits(u))
    || (|u| >= 2 && exists i :: 0 <= i < |u| && u[i] == '.' && AllDigits(u[..i]) && AllDigits(u[i + 1..]))
  }

  /** The value of the numeral `whole.frac`: the fraction digits count in tenths, hundredths, ... */
  function PointValue(whole: string, frac: string): (v: real)
    requires AllDigits(whole) && AllDigits(frac)
    ensures v >= 0.0
  {
    DigitsValue(whole) as real + DigitsValue(frac) as real / Pow10(|frac|) as real
  }

  /** A run of digits followed by a non-digit ends where the scan for digits stops. */
  lemma DigitsUpTo(u: string, k: nat)
    requires k < |u| && !IsDigit(u[k]) && AllDigits(u[..k])
    ensures SkipWhile(u, 0, IsDigit) == k
  {
    assert forall j :: 0 <= j < k ==> IsDigit(u[..k][j]);
    SkipWhileUnique(u, 0, IsDigit, k);
  }

  /** An unsigned fixed-point numeral as an exact rational value; `None` outside UnsignedSyntax. */
  function ParseUnsigned(u: string): (r: Option<real>)
    ensures r.Some? <==> UnsignedSyntax(u)
    ensures r.Some? ==> r.value >= 0.0
  {
    var i := SkipWhile(u, 0, IsDigit);
    if i == |u| then
      if i > 0 then Some(DigitsValue(u) as real) else None
    else if u[i] == '.' && |u| >= 2 && AllDigits(u[i + 1..]) then
      Some(PointValue(u[..i], u[i + 1..]))
    else
      assert !UnsignedSyntax(u) by {
        forall k | 0 <= k < |u| && u[k] == '.' && AllDigits(u[..k]) ensures SkipWhile(u, 0, IsDigit) == k {
          DigitsUpTo(u, k);
        }
      }
      None
  }

  /** The subset of Python's `float()` modelled here: an optional sign and an unsigned fixed-point
      numeral, read exactly. */
  function ParseDecimal(t: string): (r: Option<real>)
    ensures r.Some? && r.value < 0.0 ==> |t| > 0 && t[0] == '-'
    ensures r.Some? <==> (if |t| > 0 && (t[0] == '-' || t[0] == '+') then UnsignedSyntax(t[1..]) else UnsignedSyntax(t))
  {
    if |t| > 0 && t[0] == '-' then
      match ParseUnsigned(t[1..])
      case Some(v) => Some(-v)
      case None => None
    else if |t| > 0 && t[0] == '+' then ParseUnsigned(t[1..])
    else ParseUnsigned(t)
  }

  /** A digit string with no point reads back as its integer value. */
  lemma ParseDigits(ds: string)
    requires |ds| > 0 && AllDigits(ds)
    ensures ParseUnsigned(ds) == Some(DigitsValue(ds) as real)
  {
    SkipWhileUnique(ds, 0, IsDigit, |ds|);
  }

  /** What `str()` writes for a non-negative int, the numeral reader gives back. */
  lemma ParseShowNat(n: nat)
    ensures ParseDecimal(ShowNat(n)) == Some(n as real)
  {
    ParseDigits(ShowNat(n));
  }

  /** What `str()` writes for any int, the numeral reader gives back, sign included. */
  lemma ParseShowInt(i: int)
    ensures ParseDecimal(ShowInt(i)) == Some(i as real)
  {
    if i < 0 {
      assert ShowInt(i)[1..] == ShowNat(-i);
      ParseDigits(ShowNat(-i));
    } else {
      ParseShowNat(i);
    }
  }

  /** An unsigned numeral with its point at `i` reads as the whole part plus the fraction. */
  lemma ParsePoint(u: string, i: nat)
    requires i < |u| && u[i] == '.' && 2 <= |u|
    requires AllDigits(u[..i]) && AllDigits(u[i + 1..])
    ensures ParseUnsigned(u) == Some(PointValue(u[..i], u[i + 1..]))
  {
    DigitsUpTo(u, i);
  }

  /** Digits, a point and digits read as the numeral's value. */
  lemma ParseWithPoint(w: string, frac: string)
    requires |w| > 0 && AllDigits(w) && AllDigits(frac)
    ensures ParseDecimal(w + "." + frac) == Some(PointValue(w, frac))
  {
    var u := w + "." + frac;
    assert u[..|w|] == w && u[|w| + 1..] == frac && u[|w|] == '.';
    ParsePoint(u, |w|);
    assert ParseDecimal(u) == ParseUnsigned(u) by {
      assert u[0] == w[0];
    }
  }

  /** An unsigned numeral starts and ends with a digit or the point, so never with a sign or a space. */
  lemma UnsignedEnds(u: string)
    requires UnsignedSyntax(u)
    ensures |u| > 0 && (IsDigit(u[0]) || u[0] == '.') && (IsDigit(u[|u| - 1]) || u[|u| - 1] == '.')
  {
    if !AllDigits(u) {
      var i :| 0 <= i < |u| && u[i] == '.' && AllDigits(u[..i]) && AllDigits(u[i + 1..]);
      if i > 0 {
        assert u[..i][0] == u[0];
      }
      if i < |u| - 1 {
        assert u[i + 1..][|u| - i - 2] == u[|u| - 1];
      }
    }
  }

  /** A sign in front of an unsigned numeral: `-` negates its value, `+` keeps it, and without a
      sign the numeral reads as itself. */
  lemma ParseSigned(u: string)
    requires UnsignedSyntax(u)
    ensures ParseDecimal("-" + u) == Some(-ParseUnsigned(u).value)
    ensures ParseDecimal("+" + u) == ParseUnsigned(u)
    ensures ParseDecimal(u) == ParseUnsigned(u)
  {
    assert ("-" + u)[1..] == u && ("+" + u)[1..] == u;
    UnsignedEnds(u);
  }

  /** `0.5` is an unsigned numeral worth one half. */
  lemma PointFive()
    ensures UnsignedSyntax("0.5") && ParseUnsigned("0.5") == Some(0.5)
  {
    var u := "0.5";
    assert u[..1] == "0" && u[2..] == "5";
    ParsePoint(u, 1);
    assert DigitsValue("0") == 0 && DigitsValue("5") == 5 by {
      assert "0"[..0] == "" && "5"[..0] == "";
    }
    assert Pow10(1) == 10;
  }

  /** `2.5` is an unsigned numeral worth two and a half. */
  lemma TwoPointFive()
    ensures UnsignedSyntax("2.5") && ParseUnsigned("2.5") == Some(2.5)
  {
    var u := "2.5";
    assert u[..1] == "2" && u[2..] == "5";
    ParsePoint(u, 1);
    assert DigitsValue("2") == 2 && DigitsValue("5") == 5 by {
      assert "2"[..0] == "" && "5"[..0] == "";
    }
    assert Pow10(1) == 10;
  }
}

=== FILE: meal_entry.dfy ===
/** Manual meal entry in callie.py: the form's text inputs (optionally pre-filled from a parsed
    model reply or a quick-add preset), the number reader `parse_number`, and the decision to save
    the meal or report errors. */
module MealEntry {
  import opened Wrappers
  import opened Chars
  import opened Decimal
  import opened Records
  import opened Meals
  import opened ResponseParser
  import ReplyFormat

  /** The six text inputs of the "Log Your Meals" form. */
  datatype MealForm = MealForm(name: string, calories: string, protein: string, fat: string,
                               cholesterol: string, carbs: string)

  /** The form as first shown and as cleared after a save: every input empty. */
  const EmptyForm := MealForm("", "", "", "", "", "")

  /** `parse_number`: surrounding whitespace is ignored, a blank input means 0, and otherwise the
      input must be a number that is not negative. */
  function ParseNumber(input: string): (r: Option<real>)
    ensures AllSpace(input) ==> r == Some(0.0)
    ensures r.Some? ==> r.value >= 0.0
    ensures Trim(input) != "" ==>
              (r.Some? <==> ParseDecimal(Trim(input)).Some? && ParseDecimal(Trim(input)).value >= 0.0)
    ensures Trim(input) != "" && r.Some? ==> r == ParseDecimal(Trim(input))
  {
    var t := Trim(input);
    if t == "" then Some(0.0)
    else
      match ParseDecimal(t)
      case Some(v) => if v < 0.0 then None else Some(v)
      case None => None
  }

  /** Whitespace around an input does not change what it reads as. */
  lemma ParseNumberIgnoresPadding(a: string, m: string, b: string)
    requires AllSpace(a) && AllSpace(b) && IsTrimmed(m)
    ensures ParseNumber(a + m + b) == ParseNumber(m)
  {
    TrimUnique(a, m, b);
    TrimTrimmed(m);
  }

  /** A digit string reads as its value. */
  lemma ParseNumberDigits(ds: string)
    requires |ds| > 0 && AllDigits(ds)
    ensures ParseNumber(ds) == Some(DigitsValue(ds) as real)
  {
    DigitsTrimmed(ds);
    TrimTrimmed(ds);
    ParseDigits(ds);
    assert ParseDecimal(ds) == ParseUnsigned(ds) by {
      assert IsDigit(ds[0]);
    }
  }

  /** A digit string has no whitespace at either end. */
  lemma DigitsTrimmed(ds: string)
    requires |ds| > 0 && AllDigits(ds)
    ensures IsTrimmed(ds)
  {
    assert IsDigit(ds[0]) && IsDigit(ds[|ds| - 1]);
  }

  /** What `str()` writes for a non-negative integer reads back as that integer. */
  lemma ParseNumberShowNat(n: nat)
    ensures ParseNumber(ShowNat(n)) == Some(n as real)
  {
    ParseNumberDigits(ShowNat(n));
  }

  /** A minus sign in front of any numeral worth more than zero is refused, fractions included. */
  lemma ParseNumberRefusesNegative(u: string)
    requires UnsignedSyntax(u) && ParseUnsigned(u).value > 0.0
    ensures ParseNumber("-" + u) == None
  {
    var s := "-" + u;
    UnsignedEnds(u);
    assert IsTrimmed(s) by {
      assert s[|s| - 1] == u[|u| - 1];
    }
    TrimTrimmed(s);
    ParseSigned(u);
  }

  /** `-0.5` is refused. */
  lemma MinusHalfRefused()
    ensures ParseNumber("-0.5") == None
  {
    PointFive();
    assert "-0.5" == "-" + "0.5";
    ParseNumberRefusesNegative("0.5");
  }

  const NameRequired := "Meal name is required."
  const CaloriesLabel := "Calories (kcal)"
  const ProteinLabel := "Protein (g)"
  const FatLabel := "Fat (g)"
  const CholesterolLabel := "Cholesterol (mg)"
  const CarbsLabel := "Carbohydrates (g)"

  function NumberError(tag: string): string {
    tag + " must be a non-negative number."
  }

  /** The six messages the form can show are six different messages. */
  lemma ErrorsDistinct()
    ensures NameRequired != NumberError(CaloriesLabel) && NameRequired != NumberError(ProteinLabel)
    ensures NameRequired != NumberError(FatLabel) && NameRequired != NumberError(CholesterolLabel)
    ensures NameRequired != NumberError(CarbsLabel)
    ensures NumberError(CaloriesLabel) != NumberError(ProteinLabel) && NumberError(CaloriesLabel) != NumberError(FatLabel)
    ensures NumberError(CaloriesLabel) != NumberError(CholesterolLabel) && NumberError(CaloriesLabel) != NumberError(CarbsLabel)
    ensures NumberError(ProteinLabel) != NumberError(FatLabel) && NumberError(ProteinLabel) != NumberError(CholesterolLabel)
    ensures NumberError(ProteinLabel) != NumberError(CarbsLabel) && NumberError(FatLabel) != NumberError(CholesterolLabel)
    ensures NumberError(FatLabel) != NumberError(CarbsLabel) && NumberError(CholesterolLabel) != NumberError(CarbsLabel)
  {
    assert NameRequired[0] == 'M';
    assert NumberError(CaloriesLabel)[0] == 'C' && NumberError(CaloriesLabel)[1] == 'a' && NumberError(CaloriesLabel)[2] == 'l';
    assert NumberError(ProteinLabel)[0] == 'P' && NumberError(FatLabel)[0] == 'F';
    assert NumberError(CholesterolLabel)[0] == 'C' && NumberError(CholesterolLabel)[1] == 'h';
    assert NumberError(CarbsLabel)[0] == 'C' && NumberError(CarbsLabel)[1] == 'a' && NumberError(CarbsLabel)[2] == 'r';
  }

  /** Where a message stands in the order the form checks its inputs: the name, then calories,
      protein, fat, cholesterol and carbohydrates. Any other text comes last. */
  function Rank(e: string): nat {
    if e == NameRequired then 0
    else if e == NumberError(CaloriesLabel) then 1
    else if e == NumberError(ProteinLabel) then 2
    else if e == NumberError(FatLabel) then 3
    else if e == NumberError(CholesterolLabel) then 4
    else if e == NumberError(CarbsLabel) then 5
    else 6
  }

  /** The messages are listed in the order the form checks its inputs, none twice. */
  predicate InOrder(errs: seq<string>) {
    forall i, j :: 0 <= i < j < |errs| ==> Rank(errs[i]) < Rank(errs[j])
  }

  lemma Ranks()
    ensures Rank(NameRequired) == 0 && Rank(NumberError(CaloriesLabel)) == 1
    ensures Rank(NumberError(ProteinLabel)) == 2 && Rank(NumberError(FatLabel)) == 3
    ensures Rank(NumberError(CholesterolLabel)) == 4 && Rank(NumberError(CarbsLabel)) == 5
  {
    ErrorsDistinct();
  }

  /** Two lists in that order holding the same messages are the same list: the order and the
      membership together fix the errors shown. */
  lemma {:induction false} InOrderUnique(a: seq<string>, b: seq<string>)
    requires InOrder(a) && InOrder(b)
    requires forall e :: e in a <==> e in b
    decreases |a|
    ensures a == b
  {
    if a == [] {
      assert |b| == 0 by {
        if |b| > 0 {
          FirstIsIn(b);
        }
      }
    } else {
      assert a[0] in a;
      assert b != [] && b[0] in b;
      SameHead(a, b);
      InOrderTail(a);
      InOrderTail(b);
      InOrderUnique(a[1..], b[1..]);
      assert a == [a[0]] + a[1..] && b == [b[0]] + b[1..];
    }
  }

  lemma FirstIsIn(s: seq<string>)
    requires |s| > 0
    ensures s[0] in s
  {
  }

  /** Lists in order with the same messages start with the same message. */
  lemma SameHead(a: seq<string>, b: seq<string>)
    requires InOrder(a) && InOrder(b) && a != [] && b != []
    requires forall e :: e in a <==> e in b
    ensures a[0] == b[0]
  {
    assert a[0] in a && b[0] in b;
    var i :| 0 <= i < |a| && a[i] == b[0];
    var j :| 0 <= j < |b| && b[j] == a[0];
  }

  /** Past the first message a list in order is still in order, and holds every other message. */
  lemma InOrderTail(a: seq<string>)
    requires InOrder(a) && a != []
    ensures InOrder(a[1..])
    ensures forall e :: e in a[1..] <==> e in a && e != a[0]
  {
    forall i, j | 0 <= i < j < |a| - 1 ensures Rank(a[1..][i]) < Rank(a[1..][j]) {
      assert a[1..][i] == a[i + 1] && a[1..][j] == a[j + 1];
    }
    forall e | e in a[1..] ensures e in a && e != a[0] {
      var k :| 0 <= k < |a| - 1 && a[1..][k] == e;
      assert a[k + 1] == e;
      assert Rank(a[0]) < Rank(a[k + 1]);
    }
    forall e | e in a && e != a[0] ensures e in a[1..] {
      var k :| 0 <= k < |a| && a[k] == e;
      assert a[1..][k - 1] == e;
    }
  }

  /** Two lists in order, every message of the first checked before every message of the
      second, are in order together. */
  lemma InOrderAppend(a: seq<string>, b: seq<string>)
    requires InOrder(a) && InOrder(b)
    requires forall x, y :: x in a && y in b ==> Rank(x) < Rank(y)
    ensures InOrder(a + b)
  {
    forall i, j | 0 <= i < j < |a + b| ensures Rank((a + b)[i]) < Rank((a + b)[j]) {
      if j < |a| {
      } else if i >= |a| {
        assert (a + b)[i] == b[i - |a|] && (a + b)[j] == b[j - |a|];
      } else {
        assert (a + b)[i] == a[i] && (a + b)[j] == b[j - |a|];
        assert a[i] in a && b[j - |a|] in b;
      }
    }
  }

  /** The error `parse_number` records for an input, given what it read as: one message naming the
      input when it was refused, none otherwise. */
  function Complaint(reading: Option<real>, tag: string): (errs: seq<string>)
    ensures |errs| == if reading.None? then 1 else 0
    ensures forall e :: e in errs <==> reading.None? && e == NumberError(tag)
    ensures InOrder(errs)
  {
    if reading.None? then [NumberError(tag)] else []
  }

  /** Every amount of the form reads as a number. */
  predicate AmountsValid(form: MealForm) {
    && ParseNumber(form.calories).Some? && ParseNumber(form.protein).Some? && ParseNumber(form.fat).Some?
    && ParseNumber(form.cholesterol).Some? && ParseNumber(form.carbs).Some?
  }

  /** How many amounts of the form are refused. */
  function Refused(form: MealForm): nat {
    (if ParseNumber(form.calories).None? then 1 else 0) + (if ParseNumber(form.protein).None? then 1 else 0)
    + (if ParseNumber(form.fat).None? then 1 else 0) + (if ParseNumber(form.cholesterol).None? then 1 else 0)
    + (if ParseNumber(form.carbs).None? then 1 else 0)
  }

  /** The messages for a missing name and five readings, in the order the form checks them. */
  function ErrorList(nameMissing: bool, c: Option<real>, p: Option<real>, f: Option<real>, h: Option<real>,
                     b: Option<real>): (errs: seq<string>)
    ensures |errs| == (if nameMissing then 1 else 0) + (if c.None? then 1 else 0) + (if p.None? then 1 else 0)
                      + (if f.None? then 1 else 0) + (if h.None? then 1 else 0) + (if b.None? then 1 else 0)
    ensures nameMissing ==> errs[0] == NameRequired
    ensures InOrder(errs)
    ensures NameRequired in errs <==> nameMissing
    ensures NumberError(CaloriesLabel) in errs <==> c.None?
    ensures NumberError(ProteinLabel) in errs <==> p.None?
    ensures NumberError(FatLabel) in errs <==> f.None?
    ensures NumberError(CholesterolLabel) in errs <==> h.None?
    ensures NumberError(CarbsLabel) in errs <==> b.None?
  {
    NameThenAmounts(nameMissing, AmountErrors(c, p, f, h, b), c, p, f, h, b);
    NameBeforeAmounts(nameMissing, AmountErrors(c, p, f, h, b));
    (if nameMissing then [NameRequired] else []) + AmountErrors(c, p, f, h, b)
  }

  /** The name's message put before any list of the amounts' messages adds exactly the name's
      message, and comes first. */
  lemma NameThenAmounts(nameMissing: bool, amounts: seq<string>, c: Option<real>, p: Option<real>,
                        f: Option<real>, h: Option<real>, b: Option<real>)
    requires forall e :: e in amounts <==> || (c.None? && e == NumberError(CaloriesLabel))
                                           || (p.None? && e == NumberError(ProteinLabel))
                                           || (f.None? && e == NumberError(FatLabel))
                                           || (h.None? && e == NumberError(CholesterolLabel))
                                           || (b.None? && e == NumberError(CarbsLabel))
    ensures var errs := (if nameMissing then [NameRequired] else []) + amounts;
      && |errs| == (if nameMissing then 1 else 0) + |amounts|
      && (nameMissing ==> errs[0] == NameRequired)
      && (NameRequired in errs <==> nameMissing)
      && (NumberError(CaloriesLabel) in errs <==> c.None?)
      && (NumberError(ProteinLabel) in errs <==> p.None?)
      && (NumberError(FatLabel) in errs <==> f.None?)
      && (NumberError(CholesterolLabel) in errs <==> h.None?)
      && (NumberError(CarbsLabel) in errs <==> b.None?)
  {
    ErrorsDistinct();
  }

  /** The name's message goes before the amounts' messages in order. */
  lemma NameBeforeAmounts(nameMissing: bool, amounts: seq<string>)
    requires InOrder(amounts) && forall e :: e in amounts ==> Rank(e) >= 1
    ensures InOrder((if nameMissing then [NameRequired] else []) + amounts)
  {
    Ranks();
    InOrderAppend(if nameMissing then [NameRequired] else [], amounts);
  }

  /** The messages for five readings alone, in the order of the inputs. */
  function AmountErrors(c: Option<real>, p: Option<real>, f: Option<real>, h: Option<real>,
                        b: Option<real>): (errs: seq<string>)
    ensures |errs| == (if c.None? then 1 else 0) + (if p.None? then 1 else 0) + (if f.None? then 1 else 0)
                      + (if h.None? then 1 else 0) + (if b.None? then 1 else 0)
    ensures forall e :: e in errs <==> || (c.None? && e == NumberError(CaloriesLabel))
                                       || (p.None? && e == NumberError(ProteinLabel))
                                       || (f.None? && e == NumberError(FatLabel))
                                       || (h.None? && e == NumberError(CholesterolLabel))
                                       || (b.None? && e == NumberError(CarbsLabel))
    ensures InOrder(errs) && forall e :: e in errs ==> Rank(e) >= 1
  {
    AmountsJoined(c, p, f, h, b);
    AmountsInOrder(c, p, f, h, b);
    Complaint(c, CaloriesLabel) + Complaint(p, ProteinLabel) + Complaint(f, FatLabel)
    + Complaint(h, CholesterolLabel) + Complaint(b, CarbsLabel)
  }

  /** The five complaints, joined in the order of the inputs: one message per refused reading,
      and exactly the refused readings' messages. */
  lemma AmountsJoined(c: Option<real>, p: Option<real>, f: Option<real>, h: Option<real>, b: Option<real>)
    ensures var errs := Complaint(c, CaloriesLabel) + Complaint(p, ProteinLabel) + Complaint(f, FatLabel)
                        + Complaint(h, CholesterolLabel) + Complaint(b, CarbsLabel);
      && |errs| == (if c.None? then 1 else 0) + (if p.None? then 1 else 0) + (if f.None? then 1 else 0)
                   + (if h.None? then 1 else 0) + (if b.None? then 1 else 0)
      && (forall e :: e in errs <==> || (c.None? && e == NumberError(CaloriesLabel))
                                     || (p.None? && e == NumberError(ProteinLabel))
                                     || (f.None? && e == NumberError(FatLabel))
                                     || (h.None? && e == NumberError(CholesterolLabel))
                                     || (b.None? && e == NumberError(CarbsLabel)))
  {
    FiveMembers(Complaint(c, CaloriesLabel), Complaint(p, ProteinLabel), Complaint(f, FatLabel),
                Complaint(h, CholesterolLabel), Complaint(b, CarbsLabel));
  }

  /** The five complaints, joined in the order of the inputs, are in order. */
  lemma AmountsInOrder(c: Option<real>, p: Option<real>, f: Option<real>, h: Option<real>, b: Option<real>)
    ensures var errs := Complaint(c, CaloriesLabel) + Complaint(p, ProteinLabel) + Complaint(f, FatLabel)
                        + Complaint(h, CholesterolLabel) + Complaint(b, CarbsLabel);
      InOrder(errs) && forall e :: e in errs ==> Rank(e) >= 1
  {
    Ranks();
    FiveInOrder(Complaint(c, CaloriesLabel), Complaint(p, ProteinLabel), Complaint(f, FatLabel),
                Complaint(h, CholesterolLabel), Complaint(b, CarbsLabel));
  }

  /** What is in five lists joined is what is in one of them. */
  lemma FiveMembers(a1: seq<string>, a2: seq<string>, a3: seq<string>, a4: seq<string>, a5: seq<string>)
    ensures |a1 + a2 + a3 + a4 + a5| == |a1| + |a2| + |a3| + |a4| + |a5|
    ensures forall e :: e in a1 + a2 + a3 + a4 + a5 <==> e in a1 || e in a2 || e in a3 || e in a4 || e in a5
  {
  }

  /** Five lists in order whose messages rank 1 to 5, one rank each, are in order when joined. */
  lemma FiveInOrder(a1: seq<string>, a2: seq<string>, a3: seq<string>, a4: seq<string>, a5: seq<string>)
    requires InOrder(a1) && InOrder(a2) && InOrder(a3) && InOrder(a4) && InOrder(a5)
    requires forall e :: e in a1 ==> Rank(e) == 1
    requires forall e :: e in a2 ==> Rank(e) == 2
    requires forall e :: e in a3 ==> Rank(e) == 3
    requires forall e :: e in a4 ==> Rank(e) == 4
    requires forall e :: e in a5 ==> Rank(e) == 5
    ensures InOrder(a1 + a2 + a3 + a4 + a5)
    ensures forall e :: e in a1 + a2 + a3 + a4 + a5 ==> Rank(e) >= 1
  {
    InOrderAppend(a1, a2);
    InOrderAppend(a1 + a2, a3);
    InOrderAppend(a1 + a2 + a3, a4);
    InOrderAppend(a1 + a2 + a3 + a4, a5);
  }

  /** Every problem with the form, the missing name first, then each refused amount in the order
      of the inputs, each message naming its own input. */
  function Problems(form: MealForm): (errs: seq<string>)
    ensures |errs| == (if form.name == "" then 1 else 0) + Refused(form)
    ensures form.name == "" ==> errs[0] == NameRequired
    ensures InOrder(errs)
    ensures NameRequired in errs <==> form.name == ""
    ensures NumberError(CaloriesLabel) in errs <==> ParseNumber(form.calories).None?
    ensures NumberError(ProteinLabel) in errs <==> ParseNumber(form.protein).None?
    ensures NumberError(FatLabel) in errs <==> ParseNumber(form.fat).None?
    ensures NumberError(CholesterolLabel) in errs <==> ParseNumber(form.cholesterol).None?
    ensures NumberError(CarbsLabel) in errs <==> ParseNumber(form.carbs).None?
  {
    ErrorList(form.name == "", ParseNumber(form.calories), ParseNumber(form.protein), ParseNumber(form.fat),
              ParseNumber(form.cholesterol), ParseNumber(form.carbs))
  }

  datatype AddOutcome = Saved(fields: Fields) | Rejected(errors: seq<string>)

  /** Submitting the form: the meal is saved only when it has a name and every amount reads as a
      non-negative number; otherwise every problem is reported, the name first. */
  function AddMeal(form: MealForm, date: Date): (r: AddOutcome)
    ensures r.Saved? <==> form.name != "" && AmountsValid(form)
    ensures r.Saved? ==> RowOf(r.fields).meal == form.name && RowOf(r.fields).date == Some(date)
    ensures r.Saved? ==> NonNegative(RowOf(r.fields).macros)
    ensures r.Saved? ==> RowOf(r.fields).macros
                         == Macros(ParseNumber(form.calories).value, ParseNumber(form.protein).value,
                                   ParseNumber(form.fat).value, ParseNumber(form.cholesterol).value,
                                   ParseNumber(form.carbs).value)
    ensures r.Rejected? ==> |r.errors| == (if form.name == "" then 1 else 0) + Refused(form) > 0
    ensures r.Rejected? && form.name == "" ==> r.errors[0] == NameRequired
    ensures r.Rejected? ==> (NameRequired in r.errors <==> form.name == "")
    ensures r.Rejected? ==> (NumberError(CaloriesLabel) in r.errors <==> ParseNumber(form.calories).None?)
    ensures r.Rejected? ==> (NumberError(ProteinLabel) in r.errors <==> ParseNumber(form.protein).None?)
    ensures r.Rejected? ==> (NumberError(FatLabel) in r.errors <==> ParseNumber(form.fat).None?)
    ensures r.Rejected? ==> (NumberError(CholesterolLabel) in r.errors <==> ParseNumber(form.cholesterol).None?)
    ensures r.Rejected? ==> (NumberError(CarbsLabel) in r.errors <==> ParseNumber(form.carbs).None?)
  {
    if form.name != "" && AmountsValid(form) then
      SaveThenFetch(date, form.name, ParseNumber(form.calories), ParseNumber(form.protein),
                    ParseNumber(form.fat), ParseNumber(form.cholesterol), ParseNumber(form.carbs));
      Saved(SaveFields(date, form.name, ParseNumber(form.calories), ParseNumber(form.protein),
                       ParseNumber(form.fat), ParseNumber(form.cholesterol), ParseNumber(form.carbs)))
    else
      Rejected(Problems(form))
  }

  /** The text an optional parsed amount is shown as in the form: `str()` of it, or empty. */
  function Shown(v: Option<nat>): string {
    match v
    case Some(n) => ShowNat(n)
    case None => ""
  }

  /** Filling the form from the model's reply; when the request failed the form stays as it was. */
  function Prefill(reply: Option<Parsed>, current: MealForm): (form: MealForm)
    ensures reply.None? ==> form == current
    ensures reply.Some? ==> form.name == reply.value.name
  {
    match reply
    case None => current
    case Some(p) =>
      MealForm(p.name, Shown(p.calories), Shown(p.protein), Shown(p.fat), Shown(p.cholesterol), Shown(p.carbs))
  }

  lemma ParseShown(v: Option<nat>)
    ensures ParseNumber(Shown(v)) == Some(v.GetOr(0) as real)
  {
    if v.Some? {
      ParseNumberShowNat(v.value);
    }
  }

  /** A named reply, submitted as filled in, saves exactly the amounts the reply gave, with the
      amounts it lacked as 0. */
  lemma PrefillThenAdd(p: Parsed, current: MealForm, date: Date)
    requires p.name != ""
    ensures AddMeal(Prefill(Some(p), current), date)
            == Saved(SaveFields(date, p.name, Some(p.calories.GetOr(0) as real), Some(p.protein.GetOr(0) as real),
                                Some(p.fat.GetOr(0) as real), Some(p.cholesterol.GetOr(0) as real),
                                Some(p.carbs.GetOr(0) as real)))
  {
    ParseShown(p.calories);
    ParseShown(p.protein);
    ParseShown(p.fat);
    ParseShown(p.cholesterol);
    ParseShown(p.carbs);
  }

  /** The reply format's own example, taken through the form, logs the meal it describes. */
  lemma ExampleReplyLogged(current: MealForm, date: Date)
    ensures AddMeal(Prefill(Some(ParseResponse("Meal: Grilled Chicken Salad, Calories: 350kcal, Protein: 40g, Fat: 15g, Cholesterol: 80mg, Carbs: 20g")), current), date)
            == Saved(SaveFields(date, "Grilled Chicken Salad", Some(350.0), Some(40.0), Some(15.0), Some(80.0), Some(20.0)))
  {
    ReplyFormat.PromptExample();
    PrefillThenAdd(Parsed("Grilled Chicken Salad", Some(350), Some(40), Some(15), Some(80), Some(20)), current, date);
  }

  /** Whole non-negative amounts, written out by `str()`, with cholesterol left blank, all read. */
  lemma WholeAmountsValid(name: string, calories: nat, protein: nat, fat: nat, carbs: nat)
    ensures AmountsValid(MealForm(name, ShowNat(calories), ShowNat(protein), ShowNat(fat), "", ShowNat(carbs)))
  {
    ParseNumberShowNat(calories);
    ParseNumberShowNat(protein);
    ParseNumberShowNat(fat);
    ParseNumberShowNat(carbs);
    assert AllSpace("");
  }

  /** The "Protein shake" quick-add preset. */
  const ProteinShake := MealForm("Protein shake (1 scoop)", "120", "24", "1.5", "55", "3")

  lemma ShakeCalories()
    ensures ParseNumber("120") == Some(120.0)
  {
    assert ShowNat(1) == "1";
    assert ShowNat(12) == "12";
    assert ShowNat(120) == "120";
    ParseNumberShowNat(120);
  }

  lemma ShakeProtein()
    ensures ParseNumber("24") == Some(24.0)
  {
    assert ShowNat(2) == "2";
    assert ShowNat(24) == "24";
    ParseNumberShowNat(24);
  }

  lemma ShakeCholesterol()
    ensures ParseNumber("55") == Some(55.0)
  {
    assert ShowNat(5) == "5";
    assert ShowNat(55) == "55";
    ParseNumberShowNat(55);
  }

  lemma ShakeCarbs()
    ensures ParseNumber("3") == Some(3.0)
  {
    assert ShowNat(3) == "3";
    ParseNumberShowNat(3);
  }

  lemma OneAndAHalf()
    ensures ParseDecimal("1.5") == Some(1.5)
  {
    assert "1" + "." + "5" == "1.5";
    ParseWithPoint("1", "5");
    assert DigitsValue("1") == 1 && DigitsValue("5") == 5 && Pow10(1) == 10;
  }

  lemma ShakeFat()
    ensures ParseNumber("1.5") == Some(1.5)
  {
    OneAndAHalf();
    assert IsTrimmed("1.5");
    TrimTrimmed("1.5");
  }

  /** The preset saves as it reads, the fractional fat amount included. */
  lemma ProteinShakeSaves(date: Date)
    ensures AddMeal(ProteinShake, date)
            == Saved(SaveFields(date, "Protein shake (1 scoop)", Some(120.0), Some(24.0), Some(1.5), Some(55.0), Some(3.0)))
  {
    ShakeCalories();
    ShakeProtein();
    ShakeFat();
    ShakeCholesterol();
    ShakeCarbs();
  }

  /** A cleared form is refused for the missing name alone, since blank amounts read as 0. */
  lemma EmptyFormNeedsName(date: Date)
    ensures AddMeal(EmptyForm, date) == Rejected([NameRequired])
  {
  }

  /** The name is only checked for being empty: a name of spaces is saved. */
  lemma SpaceNameSaved(date: Date)
    ensures AddMeal(MealForm(" ", "", "", "", "", ""), date).Saved?
  {
    assert AllSpace("");
  }

  /** A negative amount blocks the save and is reported under its label. */
  lemma NegativeAmountRefused(form: MealForm, date: Date, u: string)
    requires UnsignedSyntax(u) && ParseUnsigned(u).value > 0.0
    requires || form.calories == "-" + u || form.protein == "-" + u || form.fat == "-" + u
             || form.cholesterol == "-" + u || form.carbs == "-" + u
    ensures AddMeal(form, date).Rejected?
    ensures form.calories == "-" + u ==> NumberError(CaloriesLabel) in AddMeal(form, date).errors
    ensures form.protein == "-" + u ==> NumberError(ProteinLabel) in AddMeal(form, date).errors
    ensures form.fat == "-" + u ==> NumberError(FatLabel) in AddMeal(form, date).errors
    ensures form.cholesterol == "-" + u ==> NumberError(CholesterolLabel) in AddMeal(form, date).errors
    ensures form.carbs == "-" + u ==> NumberError(CarbsLabel) in AddMeal(form, date).errors
  {
    ParseNumberRefusesNegative(u);
    assert !AmountsValid(form);
    var r := AddMeal(form, date);
    assert r.Rejected?;
  }
}

=== FILE: meal_update.dfy ===
/** The "Update Meal" form of callie.py: a record id, then optional new values; blank inputs keep
    the stored value, and the filled-in ones make up the partial update sent to the Meals table. */
module MealUpdate {
  import opened Wrappers
  import opened Chars
  import opened Decimal
  import opened Records
  import opened Meals

  datatype UpdateForm = UpdateForm(mealId: string, name: string, calories: string, protein: string, fat: string,
                                   cholesterol: string, carbs: string)

  /** How fetching the record by id went: found, or an HTTP error with its status code. */
  datatype Lookup = Found | HttpError(status: int)

  /** The update dictionary built so far and the errors shown so far. */
  datatype Draft = Draft(fields: Fields, errors: seq<string>)

  function UpdateError(field: string): string {
    field + " must be a number."
  }

  /** What an optional numeric input holds: nothing, something that is not a number, or a number
      (negative numbers included). */
  datatype Reading = Blank | Unreadable | Amount(value: real)

  function Read(input: string): (r: Reading)
    ensures r.Blank? <==> Trim(input) == ""
    ensures r.Amount? <==> Trim(input) != "" && ParseDecimal(Trim(input)).Some?
    ensures r.Amount? ==> ParseDecimal(Trim(input)) == Some(r.value)
  {
    var t := Trim(input);
    if t == "" then Blank
    else
      match ParseDecimal(t)
      case Some(v) => Amount(v)
      case None => Unreadable
  }

  /** What an update holds for one numeric input: the number it reads as, or nothing at all. */
  predicate Carries(fields: Fields, key: string, reading: Reading) {
    match reading
    case Amount(v) => key in fields && fields[key] == Number(v)
    case _ => key !in fields
  }

  /** No value of the dictionary is Python's `None`. */
  predicate NoNull(fields: Fields) {
    forall k :: k in fields ==> !fields[k].Null?
  }

  /** The error one optional numeric input adds, reported under `field`: one exactly when it is
      filled in but unreadable. */
  function Complaint(reading: Reading, field: string): (errs: seq<string>)
    ensures |errs| == if reading.Unreadable? then 1 else 0
    ensures forall e :: e in errs <==> reading.Unreadable? && e == UpdateError(field)
  {
    if reading.Unreadable? then [UpdateError(field)] else []
  }

  /** The five messages the update form can show are five different messages. */
  lemma UpdateErrorsDistinct()
    ensures UpdateError("Calories") != UpdateError("Protein") && UpdateError("Calories") != UpdateError("Fat")
    ensures UpdateError("Calories") != UpdateError("Cholesterol")
    ensures UpdateError("Calories") != UpdateError("Carbohydrates")
    ensures UpdateError("Protein") != UpdateError("Fat") && UpdateError("Protein") != UpdateError("Cholesterol")
    ensures UpdateError("Protein") != UpdateError("Carbohydrates") && UpdateError("Fat") != UpdateError("Cholesterol")
    ensures UpdateError("Fat") != UpdateError("Carbohydrates")
    ensures UpdateError("Cholesterol") != UpdateError("Carbohydrates")
  {
    assert UpdateError("Calories")[0] == 'C' && UpdateError("Protein")[0] == 'P' && UpdateError("Fat")[0] == 'F';
    assert UpdateError("Cholesterol")[1] == 'h' && UpdateError("Calories")[1] == 'a';
    assert UpdateError("Carbohydrates")[1] == 'a' && UpdateError("Carbohydrates")[0] == 'C';
    assert UpdateError("Calories")[2] == 'l' && UpdateError("Carbohydrates")[2] == 'r';
    assert UpdateError("Cholesterol")[0] == 'C';
  }

  /** The errors for five readings, in the order of the inputs: one for each unreadable reading,
      naming its own input. */
  function UpdateErrors(c: Reading, p: Reading, f: Reading, h: Reading, b: Reading): (errs: seq<string>)
    ensures |errs| == (if c.Unreadable? then 1 else 0) + (if p.Unreadable? then 1 else 0)
                      + (if f.Unreadable? then 1 else 0) + (if h.Unreadable? then 1 else 0)
                      + (if b.Unreadable? then 1 else 0)
    ensures UpdateError("Calories") in errs <==> c.Unreadable?
    ensures UpdateError("Protein") in errs <==> p.Unreadable?
    ensures UpdateError("Fat") in errs <==> f.Unreadable?
    ensures UpdateError("Cholesterol") in errs <==> h.Unreadable?
    ensures UpdateError("Carbohydrates") in errs <==> b.Unreadable?
  {
    UpdateErrorsDistinct();
    Complaint(c, "Calories") + Complaint(p, "Protein") + Complaint(f, "Fat")
    + Complaint(h, "Cholesterol") + Complaint(b, "Carbohydrates")
  }

  const UpdateKeys := {MealKey, CaloriesKey, ProteinKey, FatKey, CholesterolKey, CarbsKey}

  /** The six columns an update can touch are six different columns. */
  lemma UpdateKeysDistinct()
    ensures MealKey != CaloriesKey && MealKey != ProteinKey && MealKey != FatKey && MealKey != CholesterolKey
    ensures MealKey != CarbsKey && CaloriesKey != ProteinKey && CaloriesKey != FatKey
    ensures CaloriesKey != CholesterolKey && CaloriesKey != CarbsKey && ProteinKey != FatKey
    ensures ProteinKey != CholesterolKey && ProteinKey != CarbsKey && FatKey != CholesterolKey
    ensures FatKey != CarbsKey && CholesterolKey != CarbsKey
  {
    assert MealKey[0] == 'm' && CaloriesKey[0] == 'c' && ProteinKey[0] == 'p' && FatKey[0] == 'f';
    assert CholesterolKey[1] == 'h' && CaloriesKey[1] == 'a' && CarbsKey[1] == 'a';
    assert CaloriesKey[2] == 'l' && CarbsKey[2] == 'r' && CarbsKey[0] == 'c' && CholesterolKey[0] == 'c';
  }


  /** How many numeric inputs are filled in but unreadable. */
  function UnreadableCount(form: UpdateForm): nat {
    (if Read(form.calories).Unreadable? then 1 else 0) + (if Read(form.protein).Unreadable? then 1 else 0)
    + (if Read(form.fat).Unreadable? then 1 else 0) + (if Read(form.cholesterol).Unreadable? then 1 else 0)
    + (if Read(form.carbs).Unreadable? then 1 else 0)
  }

  /** The entry for the name: the stripped name, when it is not blank. */
  function NameEntry(name: string): (m: Fields)
    ensures MealKey in m <==> name != ""
    ensures MealKey in m ==> m[MealKey] == Text(name)
    ensures m.Keys <= {MealKey} && NoNull(m)
  {
    if name != "" then map[MealKey := Text(name)] else map[]
  }

  /** The dictionary and the errors for a name that is already stripped and five readings. */
  function Assemble(name: string, c: Reading, p: Reading, f: Reading, h: Reading, b: Reading): (d: Draft)
    ensures d.fields.Keys <= UpdateKeys
    ensures NoNull(d.fields)
    ensures MealKey in d.fields <==> name != ""
    ensures MealKey in d.fields ==> d.fields[MealKey] == Text(name)
    ensures Carries(d.fields, CaloriesKey, c) && Carries(d.fields, ProteinKey, p) && Carries(d.fields, FatKey, f)
    ensures Carries(d.fields, CholesterolKey, h) && Carries(d.fields, CarbsKey, b)
    ensures |d.errors| == (if c.Unreadable? then 1 else 0) + (if p.Unreadable? then 1 else 0)
                          + (if f.Unreadable? then 1 else 0) + (if h.Unreadable? then 1 else 0)
                          + (if b.Unreadable? then 1 else 0)
    ensures UpdateError("Calories") in d.errors <==> c.Unreadable?
    ensures UpdateError("Protein") in d.errors <==> p.Unreadable?
    ensures UpdateError("Fat") in d.errors <==> f.Unreadable?
    ensures UpdateError("Cholesterol") in d.errors <==> h.Unreadable?
    ensures UpdateError("Carbohydrates") in d.errors <==> b.Unreadable?
  {
    Draft(Patch(name, c, p, f, h, b), UpdateErrors(c, p, f, h, b))
  }

  /** The update dictionary for a stripped name and five readings: the name when it is not blank,
      each number under its own column, and nothing else. */
  function Patch(name: string, c: Reading, p: Reading, f: Reading, h: Reading, b: Reading): (m: Fields)
    ensures m.Keys <= UpdateKeys
    ensures NoNull(m)
    ensures MealKey in m <==> name != ""
    ensures MealKey in m ==> m[MealKey] == Text(name)
    ensures Carries(m, CaloriesKey, c) && Carries(m, ProteinKey, p) && Carries(m, FatKey, f)
    ensures Carries(m, CholesterolKey, h) && Carries(m, CarbsKey, b)
  {
    UpdateKeysDistinct();
    Put(Put(Put(Put(Put(NameEntry(name), CaloriesKey, c), ProteinKey, p), FatKey, f), CholesterolKey, h), CarbsKey, b)
  }

  /** `if parsed is not None: update_fields[key] = parsed`: a number is stored under its column,
      anything else leaves the dictionary as it was. */
  function Put(m: Fields, key: string, r: Reading): (m': Fields)
    ensures m'.Keys <= m.Keys + {key}
    ensures key !in m ==> Carries(m', key, r)
    ensures forall k :: k != key ==> (k in m' <==> k in m) && (k in m ==> m'[k] == m[k])
    ensures NoNull(m) ==> NoNull(m')
  {
    if r.Amount? then m[key := Number(r.value)] else m
  }

  /** The update dictionary: the stripped name when it is not blank, then each numeric input that
      reads as a number, each under its own column. Nothing else goes in, and in particular never
      `None`; every unreadable input is reported instead. */
  function BuildPatch(form: UpdateForm): (d: Draft)
    ensures d.fields.Keys <= UpdateKeys
    ensures NoNull(d.fields)
    ensures MealKey in d.fields <==> Trim(form.name) != ""
    ensures MealKey in d.fields ==> d.fields[MealKey] == Text(Trim(form.name))
    ensures Carries(d.fields, CaloriesKey, Read(form.calories))
    ensures Carries(d.fields, ProteinKey, Read(form.protein))
    ensures Carries(d.fields, FatKey, Read(form.fat))
    ensures Carries(d.fields, CholesterolKey, Read(form.cholesterol))
    ensures Carries(d.fields, CarbsKey, Read(form.carbs))
    ensures |d.errors| == UnreadableCount(form)
    ensures UpdateError("Calories") in d.errors <==> Read(form.calories).Unreadable?
    ensures UpdateError("Protein") in d.errors <==> Read(form.protein).Unreadable?
    ensures UpdateError("Fat") in d.errors <==> Read(form.fat).Unreadable?
    ensures UpdateError("Cholesterol") in d.errors <==> Read(form.cholesterol).Unreadable?
    ensures UpdateError("Carbohydrates") in d.errors <==> Read(form.carbs).Unreadable?
  {
    Assemble(Trim(form.name), Read(form.calories), Read(form.protein), Read(form.fat), Read(form.cholesterol),
             Read(form.carbs))
  }

  datatype UpdateOutcome =
    | MissingId
    | NotFound(id: string)
    | FetchFailed(id: string, status: int)
    | Invalid(errors: seq<string>)
    | NothingToUpdate(errors: seq<string>)
    | Updated(id: string, patch: Fields, errors: seq<string>)

  predicate HasNull(fields: Fields) {
    exists k :: k in fields && fields[k].Null?
  }

  /** The submit handler as written: an unreadable number is reported, but the guard meant to stop
      the update looks for a `None` value that is never put into the dictionary, so the readable
      inputs are sent anyway. */
  function UpdateMealAsWritten(form: UpdateForm, lookup: Lookup): (r: UpdateOutcome)
    ensures r.MissingId? <==> Trim(form.mealId) == ""
    ensures !r.Invalid?
    ensures r.Updated? <==> Trim(form.mealId) != "" && lookup.Found? && |BuildPatch(form).fields| > 0
    ensures r.Updated? ==> r.id == Trim(form.mealId) && r.patch == BuildPatch(form).fields
    ensures r.Updated? ==> r.errors == BuildPatch(form).errors
    ensures r.NotFound? <==> Trim(form.mealId) != "" && lookup == HttpError(404)
    ensures r.FetchFailed? <==> Trim(form.mealId) != "" && lookup.HttpError? && lookup.status != 404
    ensures r.FetchFailed? ==> r.id == Trim(form.mealId) && r.status == lookup.status
    ensures r.NothingToUpdate? <==> Trim(form.mealId) != "" && lookup.Found? && |BuildPatch(form).fields| == 0
  {
    var id := Trim(form.mealId);
    if id == "" then MissingId
    else
      match lookup
      case HttpError(status) => if status == 404 then NotFound(id) else FetchFailed(id, status)
      case Found =>
        var d := BuildPatch(form);
        if HasNull(d.fields) then Invalid(d.errors)
        else if |d.fields| == 0 then NothingToUpdate(d.errors)
        else Updated(id, d.fields, d.errors)
  }

  /** The update form used to show the difference between the two handlers. */
  const PartlyBadForm := UpdateForm("rec1", "", "abc", "10", "", "", "")

  lemma PartlyBadReadings()
    ensures Trim(PartlyBadForm.mealId) == "rec1" && Trim(PartlyBadForm.name) == ""
    ensures Read("abc") == Unreadable && Read("10") == Amount(10.0) && Read("") == Blank
  {
    assert IsTrimmed("rec1");
    TrimTrimmed("rec1");
    TrimTrimmed("");
    ReadLetters();
    ReadTen();
  }

  lemma ReadLetters()
    ensures Read("abc") == Unreadable
  {
    assert IsTrimmed("abc");
    TrimTrimmed("abc");
    assert ParseDecimal("abc") == None;
  }

  lemma ReadTen()
    ensures Read("10") == Amount(10.0)
  {
    assert IsTrimmed("10");
    TrimTrimmed("10");
    assert ShowNat(1) == "1" && ShowNat(10) == "10";
    ParseShowNat(10);
  }

  /** Its calories do not read, so they are reported; its protein does, so it is in the update. */
  lemma PartlyBadPatch()
    ensures BuildPatch(PartlyBadForm) == Draft(map[ProteinKey := Number(10.0)], [UpdateError("Calories")])
  {
    PartlyBadReadings();
    assert BuildPatch(PartlyBadForm) == Assemble("", Unreadable, Amount(10.0), Blank, Blank, Blank);
    PartlyBadAssembled();
  }

  lemma PartlyBadAssembled()
    ensures Assemble("", Unreadable, Amount(10.0), Blank, Blank, Blank)
            == Draft(map[ProteinKey := Number(10.0)], [UpdateError("Calories")])
  {
    var d := Assemble("", Unreadable, Amount(10.0), Blank, Blank, Blank);
    assert d.fields == map[ProteinKey := Number(10.0)];
  }

  /** With calories "abc" and protein "10", the handler as written reports the calories error and
      still updates the protein. */
  lemma AsWrittenSendsPartialUpdate()
    ensures UpdateMealAsWritten(PartlyBadForm, Found)
            == Updated("rec1", map[ProteinKey := Number(10.0)], [UpdateError("Calories")])
  {
    PartlyBadReadings();
    PartlyBadPatch();
  }

  /** The handler as intended: any unreadable number stops the update, so an update is sent only
      when every filled-in number was read. */
  function UpdateMeal(form: UpdateForm, lookup: Lookup): (r: UpdateOutcome)
    ensures r.MissingId? <==> Trim(form.mealId) == ""
    ensures r.NotFound? <==> Trim(form.mealId) != "" && lookup == HttpError(404)
    ensures r.Invalid? <==> Trim(form.mealId) != "" && lookup.Found? && UnreadableCount(form) > 0
    ensures r.Updated? <==> Trim(form.mealId) != "" && lookup.Found? && UnreadableCount(form) == 0
                            && |BuildPatch(form).fields| > 0
    ensures r.Updated? ==> r.id == Trim(form.mealId) && r.patch == BuildPatch(form).fields && r.errors == []
    ensures r.FetchFailed? <==> Trim(form.mealId) != "" && lookup.HttpError? && lookup.status != 404
    ensures r.FetchFailed? ==> r.id == Trim(form.mealId) && r.status == lookup.status
    ensures r.NothingToUpdate? <==> Trim(form.mealId) != "" && lookup.Found? && UnreadableCount(form) == 0
                                    && |BuildPatch(form).fields| == 0
  {
    var id := Trim(form.mealId);
    if id == "" then MissingId
    else
      match lookup
      case HttpError(status) => if status == 404 then NotFound(id) else FetchFailed(id, status)
      case Found =>
        var d := BuildPatch(form);
        if |d.errors| > 0 then Invalid(d.errors)
        else if |d.fields| == 0 then NothingToUpdate(d.errors)
        else Updated(id, d.fields, d.errors)
  }

  /** The same form is refused by the intended handler. */
  lemma IntendedRefusesPartialUpdate()
    ensures UpdateMeal(PartlyBadForm, Found) == Invalid([UpdateError("Calories")])
  {
    PartlyBadReadings();
    PartlyBadPatch();
  }

  /** When every filled-in number reads, both handlers do the same thing. */
  lemma HandlersAgreeOnReadableForms(form: UpdateForm, lookup: Lookup)
    requires UnreadableCount(form) == 0
    ensures UpdateMeal(form, lookup) == UpdateMealAsWritten(form, lookup)
  {
    var d := BuildPatch(form);
    assert |d.errors| == 0;
    assert !HasNull(d.fields);
  }

  /** The value an amount has after the update: the number typed in, if it reads, else the one before. */
  function NewAmount(before: real, reading: Reading): real {
    match reading
    case Amount(v) => v
    case _ => before
  }

  /** One numeric column after the update: the typed number if there was one, else the old value. */
  lemma ColumnAfterUpdate(record: Fields, patch: Fields, key: string, reading: Reading)
    requires Carries(patch, key, reading)
    ensures NumberOr(ApplyUpdate(record, patch), key, 0.0) == NewAmount(NumberOr(record, key, 0.0), reading)
  {
  }

  /** The row after an update that touches only the update columns, holding the given name entry
      and carrying the five readings. */
  lemma PatchedThenFetch(record: Fields, patch: Fields, name: string, c: Reading, p: Reading, f: Reading,
                         h: Reading, b: Reading)
    requires patch.Keys <= UpdateKeys
    requires MealKey in patch <==> name != ""
    requires MealKey in patch ==> patch[MealKey] == Text(name)
    requires Carries(patch, CaloriesKey, c) && Carries(patch, ProteinKey, p) && Carries(patch, FatKey, f)
    requires Carries(patch, CholesterolKey, h) && Carries(patch, CarbsKey, b)
    ensures RowOf(ApplyUpdate(record, patch))
            == Row(RowOf(record).mealId, RowOf(record).date, if name != "" then name else RowOf(record).meal,
                   Macros(NewAmount(RowOf(record).macros.calories, c), NewAmount(RowOf(record).macros.protein, p),
                          NewAmount(RowOf(record).macros.fat, f), NewAmount(RowOf(record).macros.cholesterol, h),
                          NewAmount(RowOf(record).macros.carbs, b)))
  {
    var after := ApplyUpdate(record, patch);
    assert MealIdKey !in patch && DateKey !in patch;
    ColumnAfterUpdate(record, patch, CaloriesKey, c);
    ColumnAfterUpdate(record, patch, ProteinKey, p);
    ColumnAfterUpdate(record, patch, FatKey, f);
    ColumnAfterUpdate(record, patch, CholesterolKey, h);
    ColumnAfterUpdate(record, patch, CarbsKey, b);
    assert TextOrEmpty(after, MealIdKey) == TextOrEmpty(record, MealIdKey);
    assert DateOrNone(after, DateKey) == DateOrNone(record, DateKey);
    assert TextOrEmpty(after, MealKey) == if name != "" then name else TextOrEmpty(record, MealKey);
  }

  /** Applying the update and fetching the record again: the name changes only when a non-blank one
      was typed, each amount only when a number was typed, and the id and date never change. */
  lemma UpdateThenFetch(record: Fields, form: UpdateForm)
    ensures RowOf(ApplyUpdate(record, BuildPatch(form).fields))
            == Row(RowOf(record).mealId, RowOf(record).date,
                   if Trim(form.name) != "" then Trim(form.name) else RowOf(record).meal,
                   Macros(NewAmount(RowOf(record).macros.calories, Read(form.calories)),
                          NewAmount(RowOf(record).macros.protein, Read(form.protein)),
                          NewAmount(RowOf(record).macros.fat, Read(form.fat)),
                          NewAmount(RowOf(record).macros.cholesterol, Read(form.cholesterol)),
                          NewAmount(RowOf(record).macros.carbs, Read(form.carbs))))
  {
    PatchedThenFetch(record, BuildPatch(form).fields, Trim(form.name), Read(form.calories), Read(form.protein),
                     Read(form.fat), Read(form.cholesterol), Read(form.carbs));
  }

  /** What `str()` writes for any integer, negative or not, reads back as that integer. */
  lemma ReadShowInt(i: int)
    ensures Read(ShowInt(i)) == Amount(i as real)
  {
    var s := ShowInt(i);
    assert IsTrimmed(s) by {
      if i < 0 {
        assert s == "-" + ShowNat(-i);
      }
      assert IsDigit(s[|s| - 1]);
    }
    TrimTrimmed(s);
    ParseShowInt(i);
  }

  /** A minus sign in front of any numeral reads as the negated number. */
  lemma ReadNegative(u: string)
    requires UnsignedSyntax(u)
    ensures Read("-" + u) == Amount(-ParseUnsigned(u).value)
  {
    var s := "-" + u;
    UnsignedEnds(u);
    assert s[0] == '-' && s[1..] == u;
    assert IsTrimmed(s) by {
      assert s[|s| - 1] == u[|u| - 1];
    }
    TrimTrimmed(s);
    assert Trim(s) == s;
    ParseSigned(u);
    assert ParseDecimal(Trim(s)) == Some(-ParseUnsigned(u).value);
  }

  /** Calories that read as a number are stored as that number. */
  lemma CaloriesStored(form: UpdateForm, v: real)
    requires Read(form.calories) == Amount(v)
    ensures CaloriesKey in BuildPatch(form).fields && BuildPatch(form).fields[CaloriesKey] == Number(v)
  {
    assert Carries(BuildPatch(form).fields, CaloriesKey, Read(form.calories));
  }

  /** Unlike adding a meal, updating accepts a negative amount and stores it as typed. */
  lemma UpdateKeepsNegative(form: UpdateForm, i: int)
    requires i < 0 && form.calories == ShowInt(i)
    ensures CaloriesKey in BuildPatch(form).fields
    ensures BuildPatch(form).fields[CaloriesKey] == Number(i as real)
  {
    ReadShowInt(i);
    CaloriesStored(form, i as real);
  }

  /** Calories of `-2.5` are stored as -2.5. */
  lemma UpdateStoresMinusTwoAndAHalf(form: UpdateForm)
    requires form.calories == "-2.5"
    ensures CaloriesKey in BuildPatch(form).fields
    ensures BuildPatch(form).fields[CaloriesKey] == Number(-2.5)
  {
    TwoPointFive();
    assert "-2.5" == "-" + "2.5";
    ReadNegative("2.5");
    CaloriesStored(form, -2.5);
  }
}

=== FILE: meals.dfy ===
/** The meal log of callie.py: the fields written when a meal is saved, the row a fetched record
    becomes, and the per-column daily totals of the dashboard. */
module Meals {
  import opened Wrappers
  import opened Records
  import opened Sums

  /** The column names of the Meals table. */
  const MealIdKey := "meal_id"
  const DateKey := "date"
  const MealKey := "meal"
  const CaloriesKey := "calories_kcal"
  const ProteinKey := "protein_g"
  const FatKey := "fat_g"
  const CholesterolKey := "cholesterol_mg"
  const CarbsKey := "carbs_g"

  /** One amount per tracked macro: kcal, then grams, grams, milligrams, grams. */
  datatype Macros = Macros(calories: real, protein: real, fat: real, cholesterol: real, carbs: real)

  const NoMacros := Macros(0.0, 0.0, 0.0, 0.0, 0.0)

  predicate NonNegative(m: Macros) {
    m.calories >= 0.0 && m.protein >= 0.0 && m.fat >= 0.0 && m.cholesterol >= 0.0 && m.carbs >= 0.0
  }

  function Plus(a: Macros, b: Macros): Macros {
    Macros(a.calories + b.calories, a.protein + b.protein, a.fat + b.fat,
           a.cholesterol + b.cholesterol, a.carbs + b.carbs)
  }

  /** A row of the meal table shown by the app. */
  datatype Row = Row(mealId: string, date: Option<Date>, meal: string, macros: Macros)

  /** The fields `save_meal_to_airtable` creates. A missing amount is written as 0, so every
      macro column is present and numeric; no meal id is written. */
  function SaveFields(date: Date, name: string, calories: Option<real>, protein: Option<real>,
                      fat: Option<real>, cholesterol: Option<real>, carbs: Option<real>): (fields: Fields)
    ensures fields.Keys == {DateKey, MealKey, CaloriesKey, ProteinKey, FatKey, CholesterolKey, CarbsKey}
    ensures MealIdKey !in fields
    ensures forall k :: k in fields && k != DateKey && k != MealKey ==> fields[k].Number?
    ensures calories.None? ==> fields[CaloriesKey] == Number(0.0)
    ensures protein.None? ==> fields[ProteinKey] == Number(0.0)
    ensures fat.None? ==> fields[FatKey] == Number(0.0)
    ensures cholesterol.None? ==> fields[CholesterolKey] == Number(0.0)
    ensures carbs.None? ==> fields[CarbsKey] == Number(0.0)
  {
    map[DateKey := Day(date), MealKey := Text(name),
        CaloriesKey := Number(calories.GetOr(0.0)), ProteinKey := Number(protein.GetOr(0.0)),
        FatKey := Number(fat.GetOr(0.0)), CholesterolKey := Number(cholesterol.GetOr(0.0)),
        CarbsKey := Number(carbs.GetOr(0.0))]
  }

  /** The row `get_meals_from_airtable` builds from a record's fields: a missing meal id or meal
      name becomes "", a missing date becomes no date, and a missing amount becomes 0. */
  function RowOf(fields: Fields): (r: Row)
    ensures MealIdKey !in fields ==> r.mealId == ""
    ensures MealKey !in fields ==> r.meal == ""
    ensures DateKey !in fields ==> r.date == None
    ensures CaloriesKey !in fields ==> r.macros.calories == 0.0
    ensures ProteinKey !in fields ==> r.macros.protein == 0.0
    ensures FatKey !in fields ==> r.macros.fat == 0.0
    ensures CholesterolKey !in fields ==> r.macros.cholesterol == 0.0
    ensures CarbsKey !in fields ==> r.macros.carbs == 0.0
  {
    Row(TextOrEmpty(fields, MealIdKey), DateOrNone(fields, DateKey), TextOrEmpty(fields, MealKey),
        Macros(NumberOr(fields, CaloriesKey, 0.0), NumberOr(fields, ProteinKey, 0.0), NumberOr(fields, FatKey, 0.0),
               NumberOr(fields, CholesterolKey, 0.0), NumberOr(fields, CarbsKey, 0.0)))
  }

  /** A saved meal fetched back shows the saved day, name and amounts, with the missing amounts
      as 0 and an empty meal id. */
  lemma SaveThenFetch(date: Date, name: string, calories: Option<real>, protein: Option<real>,
                      fat: Option<real>, cholesterol: Option<real>, carbs: Option<real>)
    ensures RowOf(SaveFields(date, name, calories, protein, fat, cholesterol, carbs))
            == Row("", Some(date), name,
                   Macros(calories.GetOr(0.0), protein.GetOr(0.0), fat.GetOr(0.0),
                          cholesterol.GetOr(0.0), carbs.GetOr(0.0)))
  {
  }

  /** The dashboard's daily totals: the sum of each macro column over the day's rows. */
  function Totals(rows: seq<Row>): (t: Macros)
    ensures |rows| == 0 ==> t == NoMacros
  {
    Macros(Sum(rows, (r: Row) => r.macros.calories), Sum(rows, (r: Row) => r.macros.protein),
           Sum(rows, (r: Row) => r.macros.fat), Sum(rows, (r: Row) => r.macros.cholesterol),
           Sum(rows, (r: Row) => r.macros.carbs))
  }

  /** The totals do not depend on the order the rows were fetched in. */
  lemma TotalsPermutation(a: seq<Row>, b: seq<Row>)
    requires multiset(a) == multiset(b)
    ensures Totals(a) == Totals(b)
  {
    SumPermutation(a, b, (r: Row) => r.macros.calories);
    SumPermutation(a, b, (r: Row) => r.macros.protein);
    SumPermutation(a, b, (r: Row) => r.macros.fat);
    SumPermutation(a, b, (r: Row) => r.macros.cholesterol);
    SumPermutation(a, b, (r: Row) => r.macros.carbs);
  }

  /** The totals of two batches of rows add up column by column. */
  lemma TotalsAppend(a: seq<Row>, b: seq<Row>)
    ensures Totals(a + b) == Plus(Totals(a), Totals(b))
  {
    SumAppend(a, b, (r: Row) => r.macros.calories);
    SumAppend(a, b, (r: Row) => r.macros.protein);
    SumAppend(a, b, (r: Row) => r.macros.fat);
    SumAppend(a, b, (r: Row) => r.macros.cholesterol);
    SumAppend(a, b, (r: Row) => r.macros.carbs);
  }

  /** One more meal adds exactly its own amounts to the totals. */
  lemma TotalsAddMeal(rows: seq<Row>, row: Row)
    ensures Totals(rows + [row]) == Plus(Totals(rows), row.macros)
  {
    TotalsAppend(rows, [row]);
    SumSingle(row, (r: Row) => r.macros.calories);
    SumSingle(row, (r: Row) => r.macros.protein);
    SumSingle(row, (r: Row) => r.macros.fat);
    SumSingle(row, (r: Row) => r.macros.cholesterol);
    SumSingle(row, (r: Row) => r.macros.carbs);
  }

  /** Rows with non-negative amounts have non-negative totals. */
  lemma TotalsNonNegative(rows: seq<Row>)
    requires forall i :: 0 <= i < |rows| ==> NonNegative(rows[i].macros)
    ensures NonNegative(Totals(rows))
  {
    SumNonNegative(rows, (r: Row) => r.macros.calories);
    SumNonNegative(rows, (r: Row) => r.macros.protein);
    SumNonNegative(rows, (r: Row) => r.macros.fat);
    SumNonNegative(rows, (r: Row) => r.macros.cholesterol);
    SumNonNegative(rows, (r: Row) => r.macros.carbs);
  }
}

=== FILE: progress.dfy ===
/** Progress against daily goals: what callie.py's gauges are drawn from (the intake, the goal,
    the title and the unit), the percentage `plot_gauge` computes, the "left"/"over" caption, and
    the progress metric and bar that both apps define in `display_progress`. */
module Progress {
  import opened Meals

  /** The `percent` local of `plot_gauge`: intake as a percentage of the goal, capped at 100, and 0
      when the goal is 0. The figure never uses it: the gauge draws the intake itself, with the
      unit after it, on an axis from 0 to the goal. */
  function GaugePercent(value: real, goal: real): (p: real)
    ensures p <= 100.0
    ensures goal == 0.0 ==> p == 0.0
    ensures goal > 0.0 ==> (p == 100.0 <==> value >= goal)
    ensures goal > 0.0 && value < goal ==> p * goal == value * 100.0
    ensures goal > 0.0 && value >= 0.0 ==> p >= 0.0
  {
    var raw := if goal != 0.0 then value / goal * 100.0 else 0.0;
    if 100.0 < raw then 100.0 else raw
  }

  /** The caption under a gauge: how far over the goal, or how much is left. */
  datatype Standing = Over(excess: real) | Left(remaining: real)

  function Abs(x: real): real {
    if x < 0.0 then -x else x
  }

  /** `remaining = goal - intake`; the caption says "over" exactly when the intake exceeds the
      goal, showing the size of the difference, and "left" otherwise. */
  function StandingOf(intake: real, goal: real): (s: Standing)
    ensures s.Over? <==> intake > goal
    ensures s.Over? ==> s.excess > 0.0 && intake == goal + s.excess
    ensures s.Left? ==> s.remaining >= 0.0 && intake + s.remaining == goal
  {
    var remaining := goal - intake;
    if intake > goal then Over(Abs(remaining)) else Left(remaining)
  }

  /** Over the goal means a percentage of 100; a percentage short of 100 means something is left. */
  lemma StandingMatchesGauge(intake: real, goal: real)
    requires goal > 0.0
    ensures StandingOf(intake, goal).Over? ==> GaugePercent(intake, goal) == 100.0
    ensures GaugePercent(intake, goal) < 100.0 ==> StandingOf(intake, goal).Left?
    ensures StandingOf(intake, goal) == Left(0.0) <==> intake == goal
  {
  }

  /** The fixed goals of callie.py's dashboard. */
  const DailyGoals := Macros(1700.0, 100.0, 55.0, 300.0, 220.0)

  /** One gauge of the dashboard. The figure shows `intake` followed by `unit`, on an axis from 0
      to `goal`, under the title `title (goal unit)`; `percent` is the local `plot_gauge` computes
      alongside, and `standing` the caption drawn under the figure. */
  datatype Gauge = Gauge(title: string, unit: string, intake: real, goal: real, percent: real, standing: Standing)

  /** What a gauge holds about its own intake and goal: the percentage of `GaugePercent` (capped
      at 100, 0 for a zero goal, 100 exactly when the goal is reached, the exact ratio below it)
      and the caption of `StandingOf` (over by the excess, or the non-negative amount left). */
  predicate GaugeShows(g: Gauge) {
    && g.percent <= 100.0
    && (g.goal == 0.0 ==> g.percent == 0.0)
    && (g.goal > 0.0 ==> (g.percent == 100.0 <==> g.intake >= g.goal))
    && (g.goal > 0.0 && g.intake < g.goal ==> g.percent * g.goal == g.intake * 100.0)
    && (g.goal > 0.0 && g.intake >= 0.0 ==> g.percent >= 0.0)
    && (g.standing.Over? <==> g.intake > g.goal)
    && (g.standing.Over? ==> g.standing.excess > 0.0 && g.intake == g.goal + g.standing.excess)
    && (g.standing.Left? ==> g.standing.remaining >= 0.0 && g.intake + g.standing.remaining == g.goal)
  }

  /** One gauge: its title and unit, the intake against the goal, the computed percentage and the
      caption. */
  function GaugeFor(title: string, unit: string, intake: real, goal: real): (g: Gauge)
    ensures g.title == title && g.unit == unit && g.intake == intake && g.goal == goal
    ensures GaugeShows(g)
  {
    Gauge(title, unit, intake, goal, GaugePercent(intake, goal), StandingOf(intake, goal))
  }

  /** The five gauges, in the order calories, protein, fat, cholesterol, carbohydrates. */
  function Dashboard(totals: Macros, goals: Macros): (gs: seq<Gauge>)
    ensures |gs| == 5
    ensures gs[0].title == "Calories" && gs[0].unit == "kcal"
    ensures gs[0].intake == totals.calories && gs[0].goal == goals.calories
    ensures gs[1].title == "Protein" && gs[1].unit == "g"
    ensures gs[1].intake == totals.protein && gs[1].goal == goals.protein
    ensures gs[2].title == "Fat" && gs[2].unit == "g"
    ensures gs[2].intake == totals.fat && gs[2].goal == goals.fat
    ensures gs[3].title == "Cholesterol" && gs[3].unit == "mg"
    ensures gs[3].intake == totals.cholesterol && gs[3].goal == goals.cholesterol
    ensures gs[4].title == "Carbohydrates" && gs[4].unit == "g"
    ensures gs[4].intake == totals.carbs && gs[4].goal == goals.carbs
    ensures forall i :: 0 <= i < |gs| ==> GaugeShows(gs[i])
  {
    [GaugeFor("Calories", "kcal", totals.calories, goals.calories),
     GaugeFor("Protein", "g", totals.protein, goals.protein),
     GaugeFor("Fat", "g", totals.fat, goals.fat),
     GaugeFor("Cholesterol", "mg", totals.cholesterol, goals.cholesterol),
     GaugeFor("Carbohydrates", "g", totals.carbs, goals.carbs)]
  }

  /** With a non-zero goal, what `GaugeShows` says fixes the gauge: any gauge it holds for carries
      exactly the percentage and caption the dashboard computes. */
  lemma GaugeShowsDetermines(g: Gauge)
    requires g.goal > 0.0 && GaugeShows(g)
    ensures g.percent == GaugePercent(g.intake, g.goal)
    ensures g.standing == StandingOf(g.intake, g.goal)
  {
    if g.intake < g.goal {
      assert g.percent * g.goal == GaugePercent(g.intake, g.goal) * g.goal;
    }
  }

  /** A day at 1800 kcal against the 1700 kcal goal gives a percentage of 100 and 100 kcal over. */
  lemma CaloriesOverExample(rows: seq<Row>)
    requires Totals(rows).calories == 1800.0
    ensures Dashboard(Totals(rows), DailyGoals)[0].standing == Over(100.0)
    ensures Dashboard(Totals(rows), DailyGoals)[0].percent == 100.0
  {
  }

  /** A gauge with nothing eaten against a non-negative goal has a percentage of 0 and shows the
      whole goal as left. */
  lemma LeftWhenUnder(g: Gauge)
    requires GaugeShows(g) && g.intake == 0.0 && g.goal >= 0.0
    ensures g.percent == 0.0
    ensures g.standing == Left(g.goal)
  {
    if g.goal > 0.0 {
      assert g.percent * g.goal == 0.0;
    }
  }

  /** With nothing eaten and goals that are not negative, every gauge has a percentage of 0 and
      shows its whole goal as left. */
  lemma NothingEatenAllLeft(goals: Macros)
    requires goals.calories >= 0.0 && goals.protein >= 0.0 && goals.fat >= 0.0
    requires goals.cholesterol >= 0.0 && goals.carbs >= 0.0
    ensures forall i :: 0 <= i < 5 ==> Dashboard(NoMacros, goals)[i].percent == 0.0
    ensures forall i :: 0 <= i < 5 ==> Dashboard(NoMacros, goals)[i].standing == Left(Dashboard(NoMacros, goals)[i].goal)
  {
    var gs := Dashboard(NoMacros, goals);
    forall i | 0 <= i < 5
      ensures gs[i].percent == 0.0 && gs[i].standing == Left(gs[i].goal)
    {
      LeftWhenUnder(gs[i]);
    }
  }

  /** An empty day shows a calorie gauge at 0 kcal, a percentage of 0, and the whole 1700 kcal left. */
  lemma EmptyDayExample()
    ensures Dashboard(Totals([]), DailyGoals)[0] == Gauge("Calories", "kcal", 0.0, 1700.0, 0.0, Left(1700.0))
  {
    assert Totals([]) == NoMacros;
    NothingEatenAllLeft(DailyGoals);
  }

  /** An empty day leaves every one of the fixed goals fully open. */
  lemma EmptyDayAllLeft()
    ensures forall i :: 0 <= i < 5 ==> Dashboard(Totals([]), DailyGoals)[i].standing == Left(Dashboard(Totals([]), DailyGoals)[i].goal)
  {
    assert Totals([]) == NoMacros;
    NothingEatenAllLeft(DailyGoals);
  }

  /** The progress metric's delta: the percentage of the goal reached, or "Goal not set". */
  datatype Delta = Percentage(percent: real) | GoalNotSet

  /** What `display_progress` shows: the metric's title and unit, the intake and the goal it is
      measured against, the delta, and the fraction the progress bar is filled. */
  datatype ProgressView = ProgressView(title: string, unit: string, current: real, goal: real, delta: Delta, bar: real)

  /** What a display says about its own intake and goal: a percentage exactly when the goal is
      positive, and then the exact ratio, however large; a bar never over full, empty without a
      goal, full exactly when the goal is reached, and never negative for a non-negative intake. */
  predicate Shows(v: ProgressView) {
    && (v.delta.Percentage? <==> v.goal > 0.0)
    && (v.delta.Percentage? ==> v.delta.percent * v.goal == v.current * 100.0)
    && v.bar <= 1.0
    && (v.goal <= 0.0 ==> v.bar == 0.0)
    && (v.goal > 0.0 ==> (v.bar == 1.0 <==> v.current >= v.goal))
    && (v.current >= 0.0 ==> v.bar >= 0.0)
  }

  /** `display_progress`: with a positive goal the percentage is unbounded and the bar is capped at
      full; without one nothing is divided, the delta reads "Goal not set" and the bar is empty. */
  function DisplayProgress(title: string, unit: string, current: real, goal: real): (v: ProgressView)
    ensures v.title == title && v.unit == unit && v.current == current && v.goal == goal
    ensures Shows(v)
  {
    if goal > 0.0 then
      var percentage := current / goal * 100.0;
      ProgressView(title, unit, current, goal, Percentage(percentage),
                   if percentage / 100.0 <= 1.0 then percentage / 100.0 else 1.0)
    else
      ProgressView(title, unit, current, goal, GoalNotSet, 0.0)
  }

  /** For a positive goal the bar is `plot_gauge`'s capped percentage, as a fraction. */
  lemma BarMatchesGauge(title: string, unit: string, current: real, goal: real)
    requires goal > 0.0
    ensures DisplayProgress(title, unit, current, goal).bar * 100.0 == GaugePercent(current, goal)
  {
  }

  /** Three times the goal reads as 300 percent while the bar stays full. */
  lemma PercentageUnbounded()
    ensures DisplayProgress("Protein", "g", 300.0, 100.0) == ProgressView("Protein", "g", 300.0, 100.0, Percentage(300.0), 1.0)
  {
  }

}

=== FILE: records.dfy ===
/** Airtable records as the two apps see them: a record's `fields` is a dictionary from column
    name to value, and a column the record has no value for is simply absent from it. */
module Records {
  import opened Wrappers

  /** A calendar day. Its `"%Y-%m-%d"` spelling and pandas' parsing of it back are not modelled:
      a stored date is carried as the day itself. */
  datatype Date = Date(year: int, month: int, day: int)

  /** A field value: text, a number, a day, or Python's `None` (which only a dictionary being built
      for an update can hold; Airtable omits empty fields instead of storing `None`). */
  datatype Value = Text(text: string) | Number(number: real) | Day(date: Date) | Null

  type Fields = map<string, Value>

  /** `fields.get(key, default)` on a numeric column: the stored number, or the default when the
      column is absent. A value of another type in a numeric column also reads as the default. */
  function NumberOr(fields: Fields, key: string, default: real): (r: real)
    ensures key !in fields ==> r == default
    ensures key in fields && fields[key].Number? ==> r == fields[key].number
  {
    if key in fields && fields[key].Number? then fields[key].number else default
  }

  /** `fields.get(key, '')` on a text column. */
  function TextOrEmpty(fields: Fields, key: string): (r: string)
    ensures key !in fields ==> r == ""
    ensures key in fields && fields[key].Text? ==> r == fields[key].text
  {
    if key in fields && fields[key].Text? then fields[key].text else ""
  }

  /** `to_datetime(fields.get(key)).date() if fields.get(key) else None`: a missing date reads as
      no date. */
  function DateOrNone(fields: Fields, key: string): (r: Option<Date>)
    ensures key !in fields ==> r == None
    ensures key in fields && fields[key].Day? ==> r == Some(fields[key].date)
  {
    if key in fields && fields[key].Day? then Some(fields[key].date) else None
  }

  /** Taking a column out of a record: that column reads as absent, and every other column reads
      as before. */
  lemma ReadsWithout(fields: Fields, gone: string, key: string, default: real)
    ensures NumberOr(fields - {gone}, gone, default) == default
    ensures key != gone ==> NumberOr(fields - {gone}, key, default) == NumberOr(fields, key, default)
    ensures key != gone ==> TextOrEmpty(fields - {gone}, key) == TextOrEmpty(fields, key)
    ensures key != gone ==> DateOrNone(fields - {gone}, key) == DateOrNone(fields, key)
  {
  }

  /** Airtable's update: the given fields replace the record's values for those columns, and every
      other column keeps its value. */
  function ApplyUpdate(record: Fields, patch: Fields): (r: Fields)
    ensures r.Keys == record.Keys + patch.Keys
    ensures forall k :: k in patch ==> r[k] == patch[k]
    ensures forall k :: k in record && k !in patch ==> r[k] == record[k]
  {
    record + patch
  }
}

=== FILE: reply_format.dfy ===
/** The reply format that the language model is asked to produce (openai_api.py, the system
    prompt's example): `Meal: <name>` followed by `, <Label>: <digits><unit>` items.

    The theorems here say that the parser reads such a reply back: every item's number is found
    under its own field, a field the reply does not carry stays `None`, and the name comes back
    unchanged. The argument rests on the colons: in a well-formed reply every `:` closes a known
    label, and no two labels end the same way, so a label can only be matched where it was written. */
module ReplyFormat {
  import opened Wrappers
  import opened Chars
  import opened Decimal
  import opened ResponseParser

  /** One `, <tag>: <value><unit>` item of the reply. */
  datatype Entry = Entry(tag: string, value: nat, unit: string)

  function Render(e: Entry): string {
    ", " + e.tag + ": " + ShowNat(e.value) + e.unit
  }

  function Items(es: seq<Entry>): string {
    if |es| == 0 then "" else Render(es[0]) + Items(es[1..])
  }

  /** The whole reply: the meal name, then the items in order. */
  function Reply(name: string, es: seq<Entry>): string {
    "Meal: " + name + Items(es)
  }

  predicate NoColon(s: string) {
    forall i :: 0 <= i < |s| ==> s[i] != ':'
  }

  /** An item the parser can read: no colon in the label or the unit, and a unit that does not
      start with a digit (so it ends the digit run). */
  predicate WellFormed(e: Entry) {
    NoColon(e.tag) && NoColon(e.unit) && |e.unit| > 0 && !IsDigit(e.unit[0])
  }

  /** Field `f` reads entry `e`: its key is the label with its colon (up to case) and its unit is
      the start of the entry's unit (`kcal` for Calories, whose pattern wants no unit at all). */
  predicate Reads(f: Field, e: Entry) {
    |f.key| == |e.tag| + 1 && WordAt(e.tag + ":", 0, f.key) && WordAt(e.unit, 0, f.unit)
  }

  /** `x` is a suffix of `s`. */
  predicate EndsWith(s: string, x: string) {
    |x| <= |s| && s[|s| - |x|..] == x
  }

  /** Neither label is a suffix of the other, so they cannot end at the same place of a text. */
  predicate Clash(x: string, y: string) {
    !EndsWith(x, y) && !EndsWith(y, x)
  }

  /** The `j`-th character counting from the end. */
  function Back(x: string, j: nat): char
    requires j < |x|
  {
    x[|x| - 1 - j]
  }

  /** Every colon of `text` closes an occurrence of one of `keys`. */
  ghost predicate ColonsLabelled(text: string, keys: seq<string>) {
    forall c :: 0 <= c < |text| && text[c] == ':' ==>
      exists j :: 0 <= j < |keys| && |keys[j]| <= c + 1 && WordAt(text, c + 1 - |keys[j]|, keys[j])
  }

  /** Two labels that end at the same place of a text cannot clash. */
  lemma SameEndNoClash(text: string, k: nat, x: string, k': nat, y: string)
    requires WordAt(text, k, x) && WordAt(text, k', y) && k + |x| == k' + |y|
    ensures !Clash(x, y)
  {
    if |x| <= |y| {
      forall i | 0 <= i < |x| ensures y[|y| - |x| + i] == x[i] {
        assert Lower(text[k' + (|y| - |x| + i)]) == y[|y| - |x| + i];
        assert Lower(text[k + i]) == x[i];
      }
      assert EndsWith(y, x);
    } else {
      forall i | 0 <= i < |y| ensures x[|x| - |y| + i] == y[i] {
        assert Lower(text[k + (|x| - |y| + i)]) == x[|x| - |y| + i];
        assert Lower(text[k' + i]) == y[i];
      }
      assert EndsWith(x, y);
    }
  }

  /** An occurrence in a prefix is an occurrence in the whole text. */
  lemma WordAtPrefix(p: string, rest: string, k: nat, x: string)
    requires WordAt(p, k, x)
    ensures WordAt(p + rest, k, x)
  {
    forall i | 0 <= i < |x| ensures Lower((p + rest)[k + i]) == x[i] {
      assert (p + rest)[k + i] == p[k + i];
    }
  }

  lemma WordAtShift(text: string, off: nat, w: string, x: string)
    requires off + |w| <= |text| && text[off..off + |w|] == w
    requires WordAt(w, 0, x)
    ensures WordAt(text, off, x)
  {
    forall i | 0 <= i < |x| ensures Lower(text[off + i]) == x[i] {
      assert text[off + i] == w[i];
    }
  }

  /** The reply's opening `Meal: <name>` has one colon, the meal label's. */
  lemma HeadLabelled(name: string)
    requires NoColon(name)
    ensures ColonsLabelled("Meal: " + name, [MealLabel])
  {
    var t := "Meal: " + name;
    assert WordAt(t, 0, MealLabel) by {
      forall i | 0 <= i < 5 ensures Lower(t[i]) == MealLabel[i] {
        assert t[..5] == "Meal:";
      }
    }
    forall c | 0 <= c < |t| && t[c] == ':'
      ensures exists j :: 0 <= j < 1 && |[MealLabel][j]| <= c + 1 && WordAt(t, c + 1 - |[MealLabel][j]|, [MealLabel][j])
    {
      assert c == 4;
      assert WordAt(t, c + 1 - |[MealLabel][0]|, [MealLabel][0]);
    }
  }

  /** Appending an item keeps every colon labelled; the new colon closes the item's key. */
  lemma RenderLabelled(p: string, e: Entry, f: Field, keys: seq<string>)
    requires ColonsLabelled(p, keys) && WellFormed(e) && Reads(f, e)
    ensures ColonsLabelled(p + Render(e), keys + [f.key])
  {
    var t := p + Render(e);
    var ks := keys + [f.key];
    KeyAtItem(p, e, f);
    forall c | 0 <= c < |t| && t[c] == ':'
      ensures exists j :: 0 <= j < |ks| && |ks[j]| <= c + 1 && WordAt(t, c + 1 - |ks[j]|, ks[j])
    {
      if c < |p| {
        assert p[c] == ':';
        var j :| 0 <= j < |keys| && |keys[j]| <= c + 1 && WordAt(p, c + 1 - |keys[j]|, keys[j]);
        WordAtPrefix(p, Render(e), c + 1 - |keys[j]|, keys[j]);
        assert ks[j] == keys[j];
      } else {
        RenderColon(p, e, c);
        assert ks[|keys|] == f.key;
      }
    }
  }

  /** An item's key stands at its label. */
  lemma KeyAtItem(p: string, e: Entry, f: Field)
    requires Reads(f, e)
    ensures WordAt(p + Render(e), |p| + 2, f.key)
  {
    var t := p + Render(e);
    assert t == p + ", " + e.tag + ": " + ShowNat(e.value) + e.unit;
    WordAtShift(t, |p| + 2, e.tag + ":", f.key) by {
      assert t[|p| + 2..|p| + 2 + |e.tag + ":"|] == e.tag + ":";
    }
  }

  /** Where an item's number and unit sit once the item is placed after `p`. */
  lemma ItemLayout(p: string, e: Entry, rest: string)
    requires WellFormed(e)
    ensures var q := |p| + 4 + |e.tag|;
            var end := q + |ShowNat(e.value)|;
            && end + |e.unit| <= |p + Render(e) + rest|
            && (p + Render(e) + rest)[q - 1] == ' '
            && (p + Render(e) + rest)[q..end] == ShowNat(e.value)
            && (p + Render(e) + rest)[end..end + |e.unit|] == e.unit
  {
    var t := p + Render(e) + rest;
    assert t == p + ", " + e.tag + ": " + ShowNat(e.value) + e.unit + rest;
  }

  /** The only colon of a well-formed item is the one after its label. */
  lemma RenderColon(p: string, e: Entry, c: nat)
    requires WellFormed(e) && |p| <= c < |p + Render(e)| && (p + Render(e))[c] == ':'
    ensures c == |p| + 2 + |e.tag|
  {
    var t := p + Render(e);
    var ds := ShowNat(e.value);
    var i := c - |p|;
    assert t[c] == Render(e)[i];
  }

  /** Before an item, its field's key cannot occur: such an occurrence would end in a colon of
      the text before the item, and that colon closes a label the key clashes with. */
  lemma NoEarlierKey(p: string, e: Entry, rest: string, f: Field, keys: seq<string>, k: nat)
    requires ColonsLabelled(p, keys) && (forall j :: 0 <= j < |keys| ==> Clash(f.key, keys[j]))
    requires WellFormed(e) && Reads(f, e) && k < |p| + 2
    ensures !WordAt(p + Render(e) + rest, k, f.key)
  {
    if WordAt(p + Render(e) + rest, k, f.key) {
      EarlierKeyMeetsLabel(p, e, rest, f, keys, k);
    }
  }

  /** An occurrence of the key before the item ends at the same colon as one of the earlier labels. */
  lemma EarlierKeyMeetsLabel(p: string, e: Entry, rest: string, f: Field, keys: seq<string>, k: nat)
    requires ColonsLabelled(p, keys) && WellFormed(e) && Reads(f, e) && k < |p| + 2
    requires WordAt(p + Render(e) + rest, k, f.key)
    ensures exists j :: 0 <= j < |keys| && !Clash(f.key, keys[j])
  {
    var t := p + Render(e) + rest;
    var c := k + |f.key| - 1;
    assert Lower((e.tag + ":")[|e.tag|]) == f.key[|e.tag|];
    assert Lower(t[k + (|f.key| - 1)]) == f.key[|f.key| - 1];
    assert t == p + ", " + e.tag + ": " + ShowNat(e.value) + e.unit + rest;
    assert forall i :: 0 <= i < |e.tag| ==> t[|p| + 2 + i] == e.tag[i];
    assert p[c] == ':';
    var j :| 0 <= j < |keys| && |keys[j]| <= c + 1 && WordAt(p, c + 1 - |keys[j]|, keys[j]);
    assert t == p + (Render(e) + rest);
    WordAtPrefix(p, Render(e) + rest, c + 1 - |keys[j]|, keys[j]);
    SameEndNoClash(t, k, f.key, c + 1 - |keys[j]|, keys[j]);
  }

  /** An item whose key clashes with every label before it is what the search for its field
      reports, whatever follows it. */
  lemma ItemFound(p: string, e: Entry, rest: string, f: Field, keys: seq<string>)
    requires ColonsLabelled(p, keys) && (forall j :: 0 <= j < |keys| ==> Clash(f.key, keys[j]))
    requires WellFormed(e) && Reads(f, e)
    ensures SearchNumber(p + Render(e) + rest, f) == Some(e.value)
  {
    var t := p + Render(e) + rest;
    ItemNumber(p, e, rest, f);
    forall k | 0 <= k < |p| + 2 ensures NumberAt(t, k, f).None? {
      NoEarlierKey(p, e, rest, f, keys, k);
    }
    SearchFindsFirst(t, f, |p| + 2, e.value);
  }

  /** The numeric pattern anchored at a placed item's label reads the item's value. */
  lemma ItemNumber(p: string, e: Entry, rest: string, f: Field)
    requires WellFormed(e) && Reads(f, e)
    ensures NumberAt(p + Render(e) + rest, |p| + 2, f) == Some(e.value)
  {
    var t := p + Render(e) + rest;
    var q := |p| + 3 + |f.key|;
    var end := q + |ShowNat(e.value)|;
    ItemPattern(p, e, rest, f);
    assert Captured(t, q, end) == e.value;
    PatternMatchesNumberAt(t, |p| + 2, f, q, end);
  }

  /** A placed item matches its field's pattern, the digits ending where the unit starts. */
  lemma ItemPattern(p: string, e: Entry, rest: string, f: Field)
    requires WellFormed(e) && Reads(f, e)
    ensures var q := |p| + 3 + |f.key|;
            var end := q + |ShowNat(e.value)|;
            && PatternAt(p + Render(e) + rest, |p| + 2, f, q, end)
            && (|f.unit| > 0 || end == |p + Render(e) + rest| || !IsDigit((p + Render(e) + rest)[end]))
            && Captured(p + Render(e) + rest, q, end) == e.value
            && UnitGuard(f)
  {
    var t := p + Render(e) + rest;
    var ds := ShowNat(e.value);
    var q := |p| + 3 + |f.key|;
    var end := q + |ds|;
    KeyAtItem(p, e, f);
    WordAtPrefix(p + Render(e), rest, |p| + 2, f.key);
    ItemLayout(p, e, rest);
    WordAtShift(t, end, e.unit, f.unit);
    assert t[end] == e.unit[0];
    if |f.unit| > 0 {
      LowerKeepsClasses(e.unit[0]);
    }
    assert forall i :: q <= i < end ==> t[i] == ds[i - q];
  }

  /** The keys of a sequence of fields, in order. */
  function Keys(fs: seq<Field>): (ks: seq<string>)
    ensures |ks| == |fs| && forall j :: 0 <= j < |fs| ==> ks[j] == fs[j].key
  {
    if |fs| == 0 then [] else [fs[0].key] + Keys(fs[1..])
  }

  /** Field `fs[j]` reads item `es[j]`, and every item is well formed. */
  predicate Matches(es: seq<Entry>, fs: seq<Field>) {
    |es| == |fs| && forall j :: 0 <= j < |es| ==> WellFormed(es[j]) && Reads(fs[j], es[j])
  }

  lemma ItemsCons(e: Entry, rest: seq<Entry>)
    ensures Items([e] + rest) == Render(e) + Items(rest)
  {
    assert ([e] + rest)[1..] == rest;
  }

  /** The items of two sequences, one after the other. */
  lemma {:induction false} ItemsAppend(a: seq<Entry>, b: seq<Entry>)
    ensures Items(a + b) == Items(a) + Items(b)
  {
    if |a| == 0 {
      assert a + b == b;
    } else {
      assert a == [a[0]] + a[1..];
      assert a + b == [a[0]] + (a[1..] + b);
      ItemsAppend(a[1..], b);
      ItemsCons(a[0], a[1..]);
      ItemsCons(a[0], a[1..] + b);
      Assoc(Render(a[0]), Items(a[1..]), Items(b));
    }
  }

  lemma ItemsOne(e: Entry)
    ensures Items([e]) == Render(e)
  {
    assert [e][1..] == [];
  }

  lemma ItemsAround(front: seq<Entry>, e: Entry, back: seq<Entry>)
    ensures Items(front + ([e] + back)) == Items(front) + Render(e) + Items(back)
  {
    ItemsAppend(front, [e] + back);
    ItemsCons(e, back);
    Assoc(Items(front), Render(e), Items(back));
  }

  lemma SplitAt<T>(s: seq<T>, i: nat)
    requires i < |s|
    ensures s == s[..i] + ([s[i]] + s[i + 1..])
  {
  }

  /** The items split around any one of them. */
  lemma ItemsSplit(es: seq<Entry>, i: nat)
    requires i < |es|
    ensures Items(es) == Items(es[..i]) + Render(es[i]) + Items(es[i + 1..])
  {
    SplitAt(es, i);
    ItemsAround(es[..i], es[i], es[i + 1..]);
  }

  /** The reply split around its `i`-th item. */
  lemma ReplySplit(name: string, es: seq<Entry>, i: nat)
    requires i < |es|
    ensures Reply(name, es) == "Meal: " + name + Items(es[..i]) + Render(es[i]) + Items(es[i + 1..])
  {
    ItemsSplit(es, i);
    var head, front, r, back := "Meal: " + name, Items(es[..i]), Render(es[i]), Items(es[i + 1..]);
    Assoc(head, front + r, back);
    Assoc(head, front, r);
  }

  /** The items up to `i`: those up to `i - 1`, then item `i - 1`. */
  lemma ItemsSnoc(es: seq<Entry>, i: nat)
    requires 0 < i <= |es|
    ensures Items(es[..i]) == Items(es[..i - 1]) + Render(es[i - 1])
  {
    assert es[..i] == es[..i - 1] + [es[i - 1]];
    ItemsAppend(es[..i - 1], [es[i - 1]]);
    ItemsOne(es[i - 1]);
  }

  lemma KeysSnoc(fs: seq<Field>, i: nat)
    requires 0 < i <= |fs|
    ensures [MealLabel] + Keys(fs[..i]) == [MealLabel] + Keys(fs[..i - 1]) + [fs[i - 1].key]
  {
  }

  /** The reply up to item `i`, and which labels close its colons. */
  lemma {:induction false} PrefixLabelled(name: string, es: seq<Entry>, fs: seq<Field>, i: nat)
    requires NoColon(name) && Matches(es, fs) && i <= |es|
    ensures ColonsLabelled("Meal: " + name + Items(es[..i]), [MealLabel] + Keys(fs[..i]))
  {
    if i == 0 {
      HeadLabelled(name);
      assert "Meal: " + name + Items(es[..0]) == "Meal: " + name;
      assert [MealLabel] + Keys(fs[..0]) == [MealLabel];
    } else {
      PrefixLabelled(name, es, fs, i - 1);
      var pre := "Meal: " + name + Items(es[..i - 1]);
      ItemsSnoc(es, i);
      assert "Meal: " + name + Items(es[..i]) == pre + Render(es[i - 1]);
      RenderLabelled(pre, es[i - 1], fs[i - 1], [MealLabel] + Keys(fs[..i - 1]));
      KeysSnoc(fs, i);
    }
  }

  /** Every item is found under its own field when its key clashes with the meal label and with
      the keys before it: the order of the items does not matter otherwise. */
  lemma ReplyReadsItem(name: string, es: seq<Entry>, fs: seq<Field>, i: nat)
    requires NoColon(name) && Matches(es, fs) && i < |es|
    requires Clash(fs[i].key, MealLabel) && forall j :: 0 <= j < i ==> Clash(fs[i].key, fs[j].key)
    ensures SearchNumber(Reply(name, es), fs[i]) == Some(es[i].value)
  {
    ReplySplit(name, es, i);
    PrefixLabelled(name, es, fs, i);
    ItemFound("Meal: " + name + Items(es[..i]), es[i], Items(es[i + 1..]), fs[i], [MealLabel] + Keys(fs[..i]));
  }

  /** A key that clashes with every label of a text occurs nowhere in it, provided it ends in a colon. */
  lemma NotMentioned(text: string, keys: seq<string>, x: string)
    requires ColonsLabelled(text, keys) && (forall j :: 0 <= j < |keys| ==> Clash(x, keys[j]))
    requires |x| > 0 && x[|x| - 1] == ':'
    ensures !Mentions(text, x)
  {
    if Mentions(text, x) {
      var k :| 0 <= k <= |text| && WordAt(text, k, x);
      MentionMeetsLabel(text, keys, x, k);
    }
  }

  lemma MentionMeetsLabel(text: string, keys: seq<string>, x: string, k: nat)
    requires ColonsLabelled(text, keys) && |x| > 0 && x[|x| - 1] == ':' && WordAt(text, k, x)
    ensures exists j :: 0 <= j < |keys| && !Clash(x, keys[j])
  {
    var c := k + |x| - 1;
    assert Lower(text[k + (|x| - 1)]) == x[|x| - 1];
    var j :| 0 <= j < |keys| && |keys[j]| <= c + 1 && WordAt(text, c + 1 - |keys[j]|, keys[j]);
    SameEndNoClash(text, k, x, c + 1 - |keys[j]|, keys[j]);
  }

  /** A field the reply carries no item for stays `None`. */
  lemma ReplyOmitsField(name: string, es: seq<Entry>, fs: seq<Field>, g: Field)
    requires NoColon(name) && Matches(es, fs)
    requires |g.key| > 0 && g.key[|g.key| - 1] == ':'
    requires Clash(g.key, MealLabel) && forall j :: 0 <= j < |fs| ==> Clash(g.key, fs[j].key)
    ensures SearchNumber(Reply(name, es), g) == None
  {
    PrefixLabelled(name, es, fs, |es|);
    assert es[..|es|] == es && fs[..|fs|] == fs;
    NotMentioned(Reply(name, es), [MealLabel] + Keys(fs), g.key);
  }

  /** The name comes back unchanged when it has no comma and no whitespace at either end. */
  lemma ReplyReadsName(name: string, es: seq<Entry>)
    requires IsTrimmed(name) && forall i :: 0 <= i < |name| ==> name[i] != ',' && name[i] != '\n'
    ensures SearchMeal(Reply(name, es)) == name
  {
    ItemsStartWithComma(es);
    NameBeforeComma(name, Items(es));
  }

  lemma ItemsStartWithComma(es: seq<Entry>)
    ensures |es| > 0 ==> |Items(es)| > 0 && Items(es)[0] == ','
  {
  }

  /** A name followed by nothing or by a comma is what the `Meal:` pattern reads. */
  lemma NameBeforeComma(name: string, rest: string)
    requires IsTrimmed(name) && forall i :: 0 <= i < |name| ==> name[i] != ','
    requires rest == "" || rest[0] == ','
    ensures SearchMeal("Meal: " + name + rest) == name
  {
    var t := "Meal: " + name + rest;
    var c := 6 + |name|;
    MealPatternOfReply(name, rest);
    MealPatternMatchesMealAt(t, 0, 6, c);
    TrimUnique("", name, "");
    assert "" + name + "" == name;
    SearchMealFindsFirst(t, 0, name);
  }

  /** In `Meal: <name><rest>` the label, the one space and the comma-free name make up the
      `Meal:` pattern, which stops where the rest begins. */
  lemma MealPatternOfReply(name: string, rest: string)
    requires forall i :: 0 <= i < |name| ==> name[i] != ','
    requires rest == "" || rest[0] == ','
    ensures MealPatternAt("Meal: " + name + rest, 0, 6, 6 + |name|)
  {
    var t := "Meal: " + name + rest;
    var c := 6 + |name|;
    MealHead(name, rest);
    assert forall i :: 5 <= i < 6 ==> IsSpace(t[i]);
    forall i | 6 <= i < c ensures t[i] != ',' {
      assert t[i] == t[6..c][i - 6] == name[i - 6];
    }
    assert c == |t| || t[c] == t[c..][0] == rest[0];
  }

  /** Where the label, the name and the rest sit in `Meal: <name><rest>`. */
  lemma MealHead(name: string, rest: string)
    ensures WordAt("Meal: " + name + rest, 0, MealLabel)
    ensures ("Meal: " + name + rest)[5] == ' '
    ensures ("Meal: " + name + rest)[6..6 + |name|] == name
    ensures ("Meal: " + name + rest)[6 + |name|..] == rest
  {
    var t := "Meal: " + name + rest;
    assert t[..6] == "Meal: ";
    forall i | 0 <= i < 5 ensures Lower(t[i]) == MealLabel[i] {
      assert t[i] == "Meal: "[i];
    }
  }

  /** The five items of the prompt's example reply, in its order, and the fields that read them. */
  function PromptEntries(calories: nat, protein: nat, fat: nat, cholesterol: nat, carbs: nat): seq<Entry> {
    [Entry("Calories", calories, "kcal"), Entry("Protein", protein, "g"), Entry("Fat", fat, "g"),
     Entry("Cholesterol", cholesterol, "mg"), Entry("Carbs", carbs, "g")]
  }

  const PromptFields := [CaloriesField, ProteinField, FatField, CholesterolField, CarbsField]

  lemma PromptFieldsRead(calories: nat, protein: nat, fat: nat, cholesterol: nat, carbs: nat)
    ensures Matches(PromptEntries(calories, protein, fat, cholesterol, carbs), PromptFields)
  {
    var es := PromptEntries(calories, protein, fat, cholesterol, carbs);
    CaloriesReads(calories);
    ProteinReads(protein);
    FatReads(fat);
    CholesterolReads(cholesterol);
    CarbsReads(carbs);
    assert forall j :: 0 <= j < 5 ==> WellFormed(es[j]) && Reads(PromptFields[j], es[j]);
  }

  lemma CaloriesReads(n: nat)
    ensures WellFormed(Entry("Calories", n, "kcal")) && Reads(CaloriesField, Entry("Calories", n, "kcal"))
  {
    TagReads("Calories", CaloriesField.key);
  }

  lemma ProteinReads(n: nat)
    ensures WellFormed(Entry("Protein", n, "g")) && Reads(ProteinField, Entry("Protein", n, "g"))
  {
    TagReads("Protein", ProteinField.key);
  }

  lemma FatReads(n: nat)
    ensures WellFormed(Entry("Fat", n, "g")) && Reads(FatField, Entry("Fat", n, "g"))
  {
    TagReads("Fat", FatField.key);
  }

  lemma CholesterolReads(n: nat)
    ensures WellFormed(Entry("Cholesterol", n, "mg")) && Reads(CholesterolField, Entry("Cholesterol", n, "mg"))
  {
    TagReads("Cholesterol", CholesterolField.key);
  }

  lemma CarbsReads(n: nat)
    ensures WellFormed(Entry("Carbs", n, "g")) && Reads(CarbsField, Entry("Carbs", n, "g"))
  {
    TagReads("Carbs", CarbsField.key);
  }

  /** A capitalised tag followed by a colon lowers to the key. */
  lemma TagReads(tag: string, key: string)
    requires |key| == |tag| + 1 && key[|tag|] == ':'
    requires forall i :: 0 <= i < |tag| ==> key[i] == Lower(tag[i])
    ensures WordAt(tag + ":", 0, key)
  {
    forall i | 0 <= i < |key| ensures Lower((tag + ":")[i]) == key[i] {
      if i < |tag| {
        assert (tag + ":")[i] == tag[i];
      }
    }
  }

  /** Labels that differ at the `j`-th character from the end clash. */
  lemma ClashAt(x: string, y: string, j: nat)
    requires j < |x| && j < |y| && Back(x, j) != Back(y, j)
    ensures Clash(x, y)
  {
    if |y| <= |x| {
      assert x[|x| - |y|..][|y| - 1 - j] == Back(x, j);
    }
    if |x| <= |y| {
      assert y[|y| - |x|..][|x| - 1 - j] == Back(y, j);
    }
  }

  /** A name the reply can carry: trimmed, on one line (the regex's `.` stops at a line break),
      with no comma (which ends it) and no colon. */
  predicate PlainName(name: string) {
    IsTrimmed(name) && NoColon(name) && forall i :: 0 <= i < |name| ==> name[i] != ',' && name[i] != '\n'
  }

  /** The prompt's keys clash with the meal label and with each other. */
  lemma PromptKeysClash(i: nat)
    requires i < 5
    ensures Clash(PromptFields[i].key, MealLabel)
    ensures forall j :: 0 <= j < i ==> Clash(PromptFields[i].key, PromptFields[j].key)
  {
    if i == 0 {
      ClashAt(CaloriesField.key, MealLabel, 1);
    } else if i == 1 {
      ClashAt(ProteinField.key, MealLabel, 1);
      ClashAt(ProteinField.key, CaloriesField.key, 1);
    } else if i == 2 {
      ClashAt(FatField.key, MealLabel, 1);
      ClashAt(FatField.key, CaloriesField.key, 1);
      ClashAt(FatField.key, ProteinField.key, 1);
    } else if i == 3 {
      ClashAt(CholesterolField.key, MealLabel, 2);
      ClashAt(CholesterolField.key, CaloriesField.key, 1);
      ClashAt(CholesterolField.key, ProteinField.key, 1);
      ClashAt(CholesterolField.key, FatField.key, 1);
    } else {
      ClashAt(CarbsField.key, MealLabel, 1);
      ClashAt(CarbsField.key, CaloriesField.key, 2);
      ClashAt(CarbsField.key, ProteinField.key, 1);
      ClashAt(CarbsField.key, FatField.key, 1);
      ClashAt(CarbsField.key, CholesterolField.key, 1);
    }
  }

  /** Each item of a prompt-format reply is found under its field. */
  lemma PromptItemFound(name: string, calories: nat, protein: nat, fat: nat, cholesterol: nat, carbs: nat, i: nat)
    requires PlainName(name) && i < 5
    ensures SearchNumber(Reply(name, PromptEntries(calories, protein, fat, cholesterol, carbs)), PromptFields[i])
            == Some(PromptEntries(calories, protein, fat, cholesterol, carbs)[i].value)
  {
    var es := PromptEntries(calories, protein, fat, cholesterol, carbs);
    PromptFieldsRead(calories, protein, fat, cholesterol, carbs);
    if i == 0 {
      PromptKeysClash(0);
      ReplyReadsItem(name, es, PromptFields, 0);
    } else if i == 1 {
      PromptKeysClash(1);
      ReplyReadsItem(name, es, PromptFields, 1);
    } else if i == 2 {
      PromptKeysClash(2);
      ReplyReadsItem(name, es, PromptFields, 2);
    } else if i == 3 {
      PromptKeysClash(3);
      ReplyReadsItem(name, es, PromptFields, 3);
    } else {
      PromptKeysClash(4);
      ReplyReadsItem(name, es, PromptFields, 4);
    }
  }

  /** A reply in the prompt's format parses back to exactly the values it was written from. */
  lemma PromptReplyRoundTrip(name: string, calories: nat, protein: nat, fat: nat, cholesterol: nat, carbs: nat)
    requires PlainName(name)
    ensures ParseResponse(Reply(name, PromptEntries(calories, protein, fat, cholesterol, carbs)))
            == Parsed(name, Some(calories), Some(protein), Some(fat), Some(cholesterol), Some(carbs))
  {
    PromptItemFound(name, calories, protein, fat, cholesterol, carbs, 0);
    PromptItemFound(name, calories, protein, fat, cholesterol, carbs, 1);
    PromptItemFound(name, calories, protein, fat, cholesterol, carbs, 2);
    PromptItemFound(name, calories, protein, fat, cholesterol, carbs, 3);
    PromptItemFound(name, calories, protein, fat, cholesterol, carbs, 4);
    ReplyReadsName(name, PromptEntries(calories, protein, fat, cholesterol, carbs));
  }

  /** The prompt's items without the Cholesterol item. */
  function NoCholesterolEntries(calories: nat, protein: nat, fat: nat, carbs: nat): seq<Entry> {
    [Entry("Calories", calories, "kcal"), Entry("Protein", protein, "g"), Entry("Fat", fat, "g"),
     Entry("Carbs", carbs, "g")]
  }

  const NoCholesterolFields := [CaloriesField, ProteinField, FatField, CarbsField]

  lemma NoCholesterolFieldsRead(calories: nat, protein: nat, fat: nat, carbs: nat)
    ensures Matches(NoCholesterolEntries(calories, protein, fat, carbs), NoCholesterolFields)
  {
    CaloriesReads(calories);
    ProteinReads(protein);
    FatReads(fat);
    CarbsReads(carbs);
  }

  lemma NoCholesterolKeysClash(i: nat)
    requires i < 4
    ensures Clash(NoCholesterolFields[i].key, MealLabel)
    ensures forall j :: 0 <= j < i ==> Clash(NoCholesterolFields[i].key, NoCholesterolFields[j].key)
  {
    if i < 3 {
      PromptKeysClash(i);
    } else {
      ClashAt(CarbsField.key, MealLabel, 1);
      ClashAt(CarbsField.key, CaloriesField.key, 2);
      ClashAt(CarbsField.key, ProteinField.key, 1);
      ClashAt(CarbsField.key, FatField.key, 1);
    }
  }

  /** The Cholesterol key clashes with the meal label and with the other four keys. */
  lemma CholesterolKeyClashes()
    ensures Clash(CholesterolField.key, MealLabel)
    ensures forall j :: 0 <= j < |NoCholesterolFields| ==> Clash(CholesterolField.key, NoCholesterolFields[j].key)
  {
    ClashAt(CholesterolField.key, MealLabel, 2);
    forall j | 0 <= j < |NoCholesterolFields| ensures Clash(CholesterolField.key, NoCholesterolFields[j].key) {
      CholesterolClashesWith(NoCholesterolFields[j]);
    }
  }

  /** Every other key ends in a letter before the colon that differs from the `l` of cholesterol. */
  lemma CholesterolClashesWith(f: Field)
    requires f in NoCholesterolFields
    ensures Clash(CholesterolField.key, f.key)
  {
    ClashAt(CholesterolField.key, f.key, 1);
  }

  lemma NoCholesterolItemFound(name: string, calories: nat, protein: nat, fat: nat, carbs: nat, i: nat)
    requires PlainName(name) && i < 4
    ensures SearchNumber(Reply(name, NoCholesterolEntries(calories, protein, fat, carbs)), NoCholesterolFields[i])
            == Some(NoCholesterolEntries(calories, protein, fat, carbs)[i].value)
  {
    NoCholesterolFieldsRead(calories, protein, fat, carbs);
    var es := NoCholesterolEntries(calories, protein, fat, carbs);
    if i == 0 {
      NoCholesterolKeysClash(0);
      ReplyReadsItem(name, es, NoCholesterolFields, 0);
    } else if i == 1 {
      NoCholesterolKeysClash(1);
      ReplyReadsItem(name, es, NoCholesterolFields, 1);
    } else if i == 2 {
      NoCholesterolKeysClash(2);
      ReplyReadsItem(name, es, NoCholesterolFields, 2);
    } else {
      NoCholesterolKeysClash(3);
      ReplyReadsItem(name, es, NoCholesterolFields, 3);
    }
  }

  /** Each field is searched on its own: a reply without the Cholesterol item gives `None` for it
      and still every other value. */
  lemma MissingCholesterolLeavesOthers(name: string, calories: nat, protein: nat, fat: nat, carbs: nat)
    requires PlainName(name)
    ensures ParseResponse(Reply(name, NoCholesterolEntries(calories, protein, fat, carbs)))
            == Parsed(name, Some(calories), Some(protein), Some(fat), None, Some(carbs))
  {
    var es := NoCholesterolEntries(calories, protein, fat, carbs);
    NoCholesterolItemFound(name, calories, protein, fat, carbs, 0);
    NoCholesterolItemFound(name, calories, protein, fat, carbs, 1);
    NoCholesterolItemFound(name, calories, protein, fat, carbs, 2);
    NoCholesterolItemFound(name, calories, protein, fat, carbs, 3);
    assert SearchNumber(Reply(name, es), CholesterolField) == None by {
      NoCholesterolFieldsRead(calories, protein, fat, carbs);
      CholesterolKeyClashes();
      ReplyOmitsField(name, es, NoCholesterolFields, CholesterolField);
    }
    ReplyReadsName(name, es);
  }

  /** The example reply's text, one piece appended at a time (each join checked on its own). */
  lemma JoinName() ensures "Meal: " + "Grilled Chicken Salad" == "Meal: Grilled Chicken Salad" { }
  lemma Join0() ensures "Meal: Grilled Chicken Salad" + ", Calories: 350kcal"
    == "Meal: Grilled Chicken Salad, Calories: 350kcal" { }
  lemma Join1() ensures "Meal: Grilled Chicken Salad, Calories: 350kcal" + ", Protein: 40g"
    == "Meal: Grilled Chicken Salad, Calories: 350kcal, Protein: 40g" { }
  lemma Join2() ensures "Meal: Grilled Chicken Salad, Calories: 350kcal, Protein: 40g" + ", Fat: 15g"
    == "Meal: Grilled Chicken Salad, Calories: 350kcal, Protein: 40g, Fat: 15g" { }
  lemma Join3() ensures "Meal: Grilled Chicken Salad, Calories: 350kcal, Protein: 40g, Fat: 15g" + ", Cholesterol: 80mg"
    == "Meal: Grilled Chicken Salad, Calories: 350kcal, Protein: 40g, Fat: 15g, Cholesterol: 80mg" { }
  lemma Join4() ensures "Meal: Grilled Chicken Salad, Calories: 350kcal, Protein: 40g, Fat: 15g, Cholesterol: 80mg" + ", Carbs: 20g"
    == "Meal: Grilled Chicken Salad, Calories: 350kcal, Protein: 40g, Fat: 15g, Cholesterol: 80mg, Carbs: 20g" { }

  lemma Assoc(a: string, b: string, c: string)
    ensures a + (b + c) == a + b + c
  {
  }

  /** The example reply is the name followed by the five items. */
  lemma ExampleText()
    ensures "Meal: Grilled Chicken Salad" + (", Calories: 350kcal" + (", Protein: 40g" + (", Fat: 15g" + (", Cholesterol: 80mg" + ", Carbs: 20g"))))
            == "Meal: Grilled Chicken Salad, Calories: 350kcal, Protein: 40g, Fat: 15g, Cholesterol: 80mg, Carbs: 20g"
  {
    Assoc("Meal: Grilled Chicken Salad", ", Calories: 350kcal", ", Protein: 40g" + (", Fat: 15g" + (", Cholesterol: 80mg" + ", Carbs: 20g")));
    Join0();
    Assoc("Meal: Grilled Chicken Salad, Calories: 350kcal", ", Protein: 40g", ", Fat: 15g" + (", Cholesterol: 80mg" + ", Carbs: 20g"));
    Join1();
    Assoc("Meal: Grilled Chicken Salad, Calories: 350kcal, Protein: 40g", ", Fat: 15g", ", Cholesterol: 80mg" + ", Carbs: 20g");
    Join2();
    Assoc("Meal: Grilled Chicken Salad, Calories: 350kcal, Protein: 40g, Fat: 15g", ", Cholesterol: 80mg", ", Carbs: 20g");
    Join3();
    Join4();
  }

  lemma PromptItems(calories: nat, protein: nat, fat: nat, cholesterol: nat, carbs: nat)
    ensures Items(PromptEntries(calories, protein, fat, cholesterol, carbs))
            == Render(Entry("Calories", calories, "kcal")) + (Render(Entry("Protein", protein, "g"))
               + (Render(Entry("Fat", fat, "g")) + (Render(Entry("Cholesterol", cholesterol, "mg"))
               + Render(Entry("Carbs", carbs, "g")))))
  {
    var es := PromptEntries(calories, protein, fat, cholesterol, carbs);
    assert Items(es[4..]) == Render(es[4]) by {
      assert es[4..][1..] == [];
    }
    assert Items(es[3..]) == Render(es[3]) + Items(es[4..]) by {
      assert es[3..][1..] == es[4..];
    }
    assert Items(es[2..]) == Render(es[2]) + Items(es[3..]) by {
      assert es[2..][1..] == es[3..];
    }
    assert Items(es[1..]) == Render(es[1]) + Items(es[2..]) by {
      assert es[1..][1..] == es[2..];
    }
  }

  lemma RenderCalories() ensures Render(Entry("Calories", 350, "kcal")) == ", Calories: 350kcal" {
    assert ShowNat(350) == "350";
  }
  lemma RenderProtein() ensures Render(Entry("Protein", 40, "g")) == ", Protein: 40g" {
    assert ShowNat(40) == "40";
  }
  lemma RenderFat() ensures Render(Entry("Fat", 15, "g")) == ", Fat: 15g" {
    assert ShowNat(15) == "15";
  }
  lemma RenderCholesterol() ensures Render(Entry("Cholesterol", 80, "mg")) == ", Cholesterol: 80mg" {
    assert ShowNat(80) == "80";
  }
  lemma RenderCarbs() ensures Render(Entry("Carbs", 20, "g")) == ", Carbs: 20g" {
    assert ShowNat(20) == "20";
  }

  /** The items of the prompt's example reply. */
  lemma ExampleItems()
    ensures Items(PromptEntries(350, 40, 15, 80, 20)) == ", Calories: 350kcal" + (", Protein: 40g" + (", Fat: 15g" + (", Cholesterol: 80mg" + ", Carbs: 20g")))
  {
    PromptItems(350, 40, 15, 80, 20);
    RenderCalories();
    RenderProtein();
    RenderFat();
    RenderCholesterol();
    RenderCarbs();
  }

  /** The prompt's example meal name is one a reply can carry. */
  lemma ExampleNamePlain()
    ensures PlainName("Grilled Chicken Salad")
  {
  }

  /** The prompt's example reply is a reply in the prompt's format. */
  lemma ExampleReply()
    ensures Reply("Grilled Chicken Salad", PromptEntries(350, 40, 15, 80, 20))
            == "Meal: Grilled Chicken Salad, Calories: 350kcal, Protein: 40g, Fat: 15g, Cholesterol: 80mg, Carbs: 20g"
  {
    ExampleItems();
    JoinName();
    ExampleText();
  }

  /** The example reply of the prompt reads back as the meal it describes. */
  lemma PromptExample()
    ensures ParseResponse("Meal: Grilled Chicken Salad, Calories: 350kcal, Protein: 40g, Fat: 15g, Cholesterol: 80mg, Carbs: 20g")
            == Parsed("Grilled Chicken Salad", Some(350), Some(40), Some(15), Some(80), Some(20))
  {
    ExampleNamePlain();
    ExampleReply();
    PromptReplyRoundTrip("Grilled Chicken Salad", 350, 40, 15, 80, 20);
  }
}

=== FILE: response_parser.dfy ===
/** The parser for the language model's free-text reply (callie.py, `parse_openai_response`).

    Each of the six fields is found by its own `re.search` with `re.IGNORECASE`:
      Meal:\s*(.*?)(?:,|$)      Calories:\s*(\d+)      Protein:\s*(\d+)g
      Fat:\s*(\d+)g             Cholesterol:\s*(\d+)mg Carbs:\s*(\d+)g
    `re.search` reports the leftmost POSITION at which the whole pattern matches, so a label
    occurrence whose digits or unit do not fit is skipped and a later occurrence may still match. */
module ResponseParser {
  import opened Wrappers
  import opened Chars
  import opened Decimal

  /** The lower-case `word` occurs at position `p` of `text`, up to ASCII case. */
  predicate WordAt(text: string, p: nat, word: string) {
    p + |word| <= |text| && forall k :: 0 <= k < |word| ==> Lower(text[p + k]) == word[k]
  }

  /** `text` contains `word` somewhere, up to ASCII case. */
  ghost predicate Mentions(text: string, word: string) {
    exists p :: 0 <= p <= |text| && WordAt(text, p, word)
  }

  /** One numeric field: its label `key` (colon included) and the unit that must follow the digits. */
  datatype Field = Field(key: string, unit: string)

  const CaloriesField := Field("calories:", "")
  const ProteinField := Field("protein:", "g")
  const FatField := Field("fat:", "g")
  const CholesterolField := Field("cholesterol:", "mg")
  const CarbsField := Field("carbs:", "g")
  const MealLabel := "meal:"

  /** The unit cannot be confused with a digit, so the digit run always ends where the unit begins. */
  predicate UnitGuard(f: Field) {
    |f.unit| == 0 || !IsDigit(f.unit[0])
  }

  /** The numeric pattern anchored at `p`, with the greedy `\s*` and `\d+` worked out: the
      captured number, or `None` when the pattern does not match at `p`. */
  function NumberAt(text: string, p: nat, f: Field): (r: Option<nat>)
    ensures r.Some? ==> CapturedAt(text, p, f, r.value)
  {
    if WordAt(text, p, f.key) then
      NumberAfterCaptured(text, p, f);
      NumberAfter(text, p + |f.key|, f.unit)
    else None
  }

  lemma NumberAfterCaptured(text: string, p: nat, f: Field)
    requires WordAt(text, p, f.key)
    ensures NumberAfter(text, p + |f.key|, f.unit).Some? ==>
              CapturedAt(text, p, f, NumberAfter(text, p + |f.key|, f.unit).value)
  {
    var q := SkipWhile(text, p + |f.key|, IsSpace);
    var e := SkipWhile(text, q, IsDigit);
    assert q < e && WordAt(text, e, f.unit) ==> PatternAt(text, p, f, q, e);
  }

  /** `\s*(\d+)Unit` anchored at `from`, with the greedy quantifiers worked out. */
  function NumberAfter(text: string, from: nat, unit: string): Option<nat>
    requires from <= |text|
  {
    var q := SkipWhile(text, from, IsSpace);
    var e := SkipWhile(text, q, IsDigit);
    if q < e && WordAt(text, e, unit) then Some(Captured(text, q, e)) else None
  }

  /** `int(group(1))`: the value of the digit run `text[q..e]`. */
  function Captured(text: string, q: nat, e: nat): nat
    requires q <= e <= |text|
    requires forall i :: q <= i < e ==> IsDigit(text[i])
  {
    assert AllDigits(text[q..e]) by {
      forall i | 0 <= i < e - q ensures IsDigit(text[q..e][i]) {
        assert text[q..e][i] == text[q + i];
      }
    }
    DigitsValue(text[q..e])
  }

  /** The regex `Label\s*\d+Unit` read declaratively: some split of the text after `p` into the
      label, whitespace `[p+|label|, q)`, digits `[q, e)` and then the unit. */
  ghost predicate PatternAt(text: string, p: nat, f: Field, q: nat, e: nat) {
    && WordAt(text, p, f.key)
    && p + |f.key| <= q < e <= |text|
    && (forall i :: p + |f.key| <= i < q ==> IsSpace(text[i]))
    && (forall i :: q <= i < e ==> IsDigit(text[i]))
    && WordAt(text, e, f.unit)
  }

  /** `Meal:\s*(.*?)(?:,|$)` anchored at `p`, on a single line: the stripped text between the
      label's whitespace and the first comma (or the end). */
  function MealAt(text: string, p: nat): (r: Option<string>)
    ensures r.Some? <==> WordAt(text, p, MealLabel)
    ensures r.Some? ==> IsTrimmed(r.value) && forall i :: 0 <= i < |r.value| ==> r.value[i] != ','
  {
    if !WordAt(text, p, MealLabel) then None
    else
      var q := SkipWhile(text, p + |MealLabel|, IsSpace);
      var c := SkipWhile(text, q, ch => ch != ',');
      GroupHasNoComma(text, q, c);
      Some(Trim(text[q..c]))
  }

  /** The lazy group stops at the first comma, so neither it nor its stripped form holds one. */
  lemma GroupHasNoComma(text: string, q: nat, c: nat)
    requires q <= c <= |text| && c == SkipWhile(text, q, ch => ch != ',')
    ensures forall k :: 0 <= k < |Trim(text[q..c])| ==> Trim(text[q..c])[k] != ','
  {
    assert forall k :: 0 <= k < c - q ==> text[q..c][k] != ',' by {
      forall k | 0 <= k < c - q ensures text[q..c][k] != ',' {
        assert text[q..c][k] == text[q + k];
      }
    }
    TrimKeepsNoComma(text[q..c]);
  }

  /** `v` is what the regex captures at `p` for some split the pattern admits, with the digit run
      maximal (the greedy `\d+`). */
  ghost predicate CapturedAt(text: string, p: nat, f: Field, v: nat) {
    exists q: nat, e: nat :: && PatternAt(text, p, f, q, e)
                             && (e == |text| || !IsDigit(text[e]))
                             && v == Captured(text, q, e)
  }

  /** The meal pattern read declaratively: whitespace `[p+5, q)`, then a lazy group `[q, c)`
      that contains no comma and is followed by a comma or the end of the text. */
  ghost predicate MealPatternAt(text: string, p: nat, q: nat, c: nat) {
    && WordAt(text, p, MealLabel)
    && p + |MealLabel| <= q <= c <= |text|
    && (forall i :: p + |MealLabel| <= i < q ==> IsSpace(text[i]))
    && (forall i :: q <= i < c ==> text[i] != ',')
    && (c == |text| || text[c] == ',')
  }

  /** `re.search`: the result at the first position in `[from, n]` where `at` matches. */
  function Leftmost<T>(n: nat, at: nat -> Option<T>, from: nat): (r: Option<T>)
    requires from <= n
    decreases n - from
    ensures r.None? <==> forall p :: from <= p <= n ==> at(p).None?
    ensures r.Some? ==> exists p :: from <= p <= n && at(p) == r && forall k :: from <= k < p ==> at(k).None?
  {
    if at(from).Some? then at(from)
    else if from == n then None
    else Leftmost(n, at, from + 1)
  }

  /** `re.search` of a numeric field over the whole text. */
  function SearchNumber(text: string, f: Field): (r: Option<nat>)
    ensures IsLeftmostNumber(text, f, r)
    ensures !Mentions(text, f.key) ==> r.None?
  {
    var at := (p: nat) => NumberAt(text, p, f);
    assert forall p :: at(p) == NumberAt(text, p, f);
    Leftmost(|text|, at, 0)
  }

  /** `re.search` of the meal pattern: the stripped name at the first `meal:`, or `""` without one. */
  function SearchMeal(text: string): (r: string)
    ensures !Mentions(text, MealLabel) ==> r == ""
    ensures IsTrimmed(r)
    ensures forall i :: 0 <= i < |r| ==> r[i] != ','
  {
    var meal := Leftmost(|text|, p => MealAt(text, p), 0);
    assert meal.Some? ==> exists p :: 0 <= p <= |text| && MealAt(text, p) == meal;
    meal.GetOr("")
  }

  /** What a search for field `f` must report: nothing when no position matches, otherwise the
      number captured at the leftmost matching position. */
  ghost predicate IsLeftmostNumber(text: string, f: Field, r: Option<nat>) {
    if r.None? then forall p :: 0 <= p <= |text| ==> NumberAt(text, p, f).None?
    else exists p :: 0 <= p <= |text| && NumberAt(text, p, f) == r
                     && forall k :: 0 <= k < p ==> NumberAt(text, k, f).None?
  }

  /** The tuple `(meal_name, calories, protein, fat, cholesterol, carbs)`. */
  datatype Parsed = Parsed(name: string, calories: Option<nat>, protein: Option<nat>, fat: Option<nat>,
                           cholesterol: Option<nat>, carbs: Option<nat>)

  /** The whole parser. It is total: malformed text gives missing fields, never an error. */
  function ParseResponse(text: string): (r: Parsed)
    ensures IsLeftmostNumber(text, CaloriesField, r.calories)
    ensures IsLeftmostNumber(text, ProteinField, r.protein)
    ensures IsLeftmostNumber(text, FatField, r.fat)
    ensures IsLeftmostNumber(text, CholesterolField, r.cholesterol)
    ensures IsLeftmostNumber(text, CarbsField, r.carbs)
    ensures !Mentions(text, CaloriesField.key) ==> r.calories.None?
    ensures !Mentions(text, ProteinField.key) ==> r.protein.None?
    ensures !Mentions(text, FatField.key) ==> r.fat.None?
    ensures !Mentions(text, CholesterolField.key) ==> r.cholesterol.None?
    ensures !Mentions(text, CarbsField.key) ==> r.carbs.None?
    ensures !Mentions(text, MealLabel) ==> r.name == ""
    ensures IsTrimmed(r.name)
    ensures forall i :: 0 <= i < |r.name| ==> r.name[i] != ','
  {
    Parsed(SearchMeal(text), SearchNumber(text, CaloriesField), SearchNumber(text, ProteinField),
           SearchNumber(text, FatField), SearchNumber(text, CholesterolField), SearchNumber(text, CarbsField))
  }

  /** Stripping a text without a comma leaves a text without a comma. */
  lemma TrimKeepsNoComma(s: string)
    requires forall k :: 0 <= k < |s| ==> s[k] != ','
    ensures forall k :: 0 <= k < |Trim(s)| ==> Trim(s)[k] != ','
  {
    var r := Trim(s);
    var i, j :| 0 <= i <= j <= |s| && r == s[i..j] && AllSpace(s[..i]) && AllSpace(s[j..]);
    forall k | 0 <= k < |r| ensures r[k] != ',' {
      assert r[k] == s[i + k];
    }
  }

  /** The leftmost-match property determines the search result. */
  lemma LeftmostNumberUnique(text: string, f: Field, r1: Option<nat>, r2: Option<nat>)
    requires IsLeftmostNumber(text, f, r1) && IsLeftmostNumber(text, f, r2)
    ensures r1 == r2
  {
    if r1.Some? && r2.Some? {
      var p1 :| 0 <= p1 <= |text| && NumberAt(text, p1, f) == r1 && forall k :: 0 <= k < p1 ==> NumberAt(text, k, f).None?;
      var p2 :| 0 <= p2 <= |text| && NumberAt(text, p2, f) == r2 && forall k :: 0 <= k < p2 ==> NumberAt(text, k, f).None?;
      assert !(p1 < p2) && !(p2 < p1);
    }
  }

  /** A match at `p` with no match before it is what the search reports. */
  lemma SearchFindsFirst(text: string, f: Field, p: nat, v: nat)
    requires p <= |text| && NumberAt(text, p, f) == Some(v)
    requires forall k :: 0 <= k < p ==> NumberAt(text, k, f).None?
    ensures SearchNumber(text, f) == Some(v)
  {
    assert IsLeftmostNumber(text, f, Some(v));
    LeftmostNumberUnique(text, f, Some(v), SearchNumber(text, f));
  }

  /** A meal match at `p` with none before it is what the search reports. */
  lemma SearchMealFindsFirst(text: string, p: nat, name: string)
    requires p <= |text| && MealAt(text, p) == Some(name)
    requires forall k :: 0 <= k < p ==> MealAt(text, k).None?
    ensures SearchMeal(text) == name
  {
    var at := (k: nat) => MealAt(text, k);
    assert forall k :: at(k) == MealAt(text, k);
    var r := Leftmost(|text|, at, 0);
    assert r.Some?;
    var p' :| 0 <= p' <= |text| && at(p') == r && forall k :: 0 <= k < p' ==> at(k).None?;
    assert p' == p;
  }

  /** Completeness of the scan against the regex: any split the pattern admits is found, and when
      the field has a unit (or the digit run is maximal) the captured number is that split's. */
  lemma PatternMatchesNumberAt(text: string, p: nat, f: Field, q: nat, e: nat)
    requires UnitGuard(f) && PatternAt(text, p, f, q, e)
    requires |f.unit| > 0 || e == |text| || !IsDigit(text[e])
    ensures NumberAt(text, p, f) == Some(Captured(text, q, e))
  {
    NumberAfterFinds(text, p + |f.key|, f.unit, q, e);
  }

  /** `\s*(\d+)Unit` anchored at `from` finds any whitespace-then-digits split followed by the unit. */
  lemma NumberAfterFinds(text: string, from: nat, unit: string, q: nat, e: nat)
    requires |unit| == 0 || !IsDigit(unit[0])
    requires from <= q < e <= |text| && WordAt(text, e, unit)
    requires forall i :: from <= i < q ==> IsSpace(text[i])
    requires forall i :: q <= i < e ==> IsDigit(text[i])
    requires |unit| > 0 || e == |text| || !IsDigit(text[e])
    ensures NumberAfter(text, from, unit) == Some(Captured(text, q, e))
  {
    assert !IsSpace(text[q]);
    SkipWhileUnique(text, from, IsSpace, q);
    if |unit| > 0 {
      LowerKeepsClasses(text[e]);
    }
    SkipWhileUnique(text, q, IsDigit, e);
  }

  /** The meal pattern at `p` yields the stripped group for every split the pattern admits: the
      whitespace that `\s*` leaves to the lazy group is removed by `strip()`. */
  lemma MealPatternMatchesMealAt(text: string, p: nat, q: nat, c: nat)
    requires MealPatternAt(text, p, q, c)
    ensures MealAt(text, p) == Some(Trim(text[q..c]))
  {
    var q' := SkipWhile(text, p + |MealLabel|, IsSpace);
    var notComma := (ch: char) => ch != ',';
    assert q <= q';
    assert q' <= c;
    SkipWhileUnique(text, q', notComma, c);
    assert text[q..c] == text[q..q'] + text[q'..c];
    assert AllSpace(text[q..q']) by {
      forall i | 0 <= i < q' - q ensures IsSpace(text[q..q'][i]) {
        assert text[q..q'][i] == text[q + i];
      }
    }
    TrimSkipsLeadingSpace(text[q..q'], text[q'..c]);
  }

  /** ASCII lower-casing of a whole text. */
  function LowerText(s: string): (r: string)
    ensures |r| == |s| && forall i :: 0 <= i < |s| ==> r[i] == Lower(s[i])
  {
    if |s| == 0 then [] else [Lower(s[0])] + LowerText(s[1..])
  }

  /** Two texts that differ at most in the case of their letters. */
  ghost predicate SameUpToCase(a: string, b: string) {
    |a| == |b| && forall i :: 0 <= i < |a| ==> Lower(a[i]) == Lower(b[i])
  }

  lemma CharUpToCase(c: char, d: char)
    requires Lower(c) == Lower(d)
    ensures IsSpace(c) == IsSpace(d) && IsDigit(c) == IsDigit(d)
    ensures IsDigit(c) ==> c == d
  {
    LowerKeepsClasses(c);
    LowerKeepsClasses(d);
  }

  lemma SameDigitRun(a: string, b: string, q: nat, e: nat)
    requires SameUpToCase(a, b) && q <= e <= |a|
    requires forall i :: q <= i < e ==> IsDigit(a[i])
    ensures a[q..e] == b[q..e]
  {
    forall i | q <= i < e ensures a[i] == b[i] {
      CharUpToCase(a[i], b[i]);
    }
  }

  lemma WordAtUpToCase(a: string, b: string, p: nat, word: string)
    requires SameUpToCase(a, b)
    ensures WordAt(a, p, word) == WordAt(b, p, word)
  {
  }

  lemma SkipUpToCase(a: string, b: string, from: nat)
    requires SameUpToCase(a, b) && from <= |a|
    ensures SkipWhile(a, from, IsSpace) == SkipWhile(b, from, IsSpace)
    ensures SkipWhile(a, from, IsDigit) == SkipWhile(b, from, IsDigit)
  {
    forall i | 0 <= i < |a| ensures IsSpace(a[i]) == IsSpace(b[i]) && IsDigit(a[i]) == IsDigit(b[i]) {
      CharUpToCase(a[i], b[i]);
    }
    SkipWhileUnique(b, from, IsSpace, SkipWhile(a, from, IsSpace));
    SkipWhileUnique(b, from, IsDigit, SkipWhile(a, from, IsDigit));
  }

  lemma NumberAtUpToCase(a: string, b: string, p: nat, f: Field)
    requires SameUpToCase(a, b)
    ensures NumberAt(a, p, f) == NumberAt(b, p, f)
  {
    WordAtUpToCase(a, b, p, f.key);
    if WordAt(a, p, f.key) {
      var from := p + |f.key|;
      NumberAfterUpToCase(a, b, from, f.unit);
      NumberAtFromParts(a, b, p, f, from);
    } else {
      assert NumberAt(a, p, f) == None == NumberAt(b, p, f);
    }
  }

  lemma NumberAtFromParts(a: string, b: string, p: nat, f: Field, from: nat)
    requires WordAt(a, p, f.key) && WordAt(b, p, f.key) && from == p + |f.key|
    requires NumberAfter(a, from, f.unit) == NumberAfter(b, from, f.unit)
    ensures NumberAt(a, p, f) == NumberAt(b, p, f)
  {
  }

  lemma NumberAfterUpToCase(a: string, b: string, from: nat, unit: string)
    requires SameUpToCase(a, b) && from <= |a|
    ensures NumberAfter(a, from, unit) == NumberAfter(b, from, unit)
  {
    var q := SkipWhile(a, from, IsSpace);
    SkipUpToCase(a, b, from);
    var e := SkipWhile(a, q, IsDigit);
    SkipUpToCase(a, b, q);
    WordAtUpToCase(a, b, e, unit);
    if q < e && WordAt(a, e, unit) {
      SameDigitRun(a, b, q, e);
      assert Captured(a, q, e) == DigitsValue(a[q..e]);
      assert Captured(b, q, e) == DigitsValue(b[q..e]);
    }
  }

  lemma LowerTextUpToCase(text: string)
    ensures SameUpToCase(LowerText(text), text)
  {
    forall i | 0 <= i < |text| ensures Lower(LowerText(text)[i]) == Lower(text[i]) {
      LowerKeepsClasses(text[i]);
    }
  }

  /** The search for one field does not see the case of the letters in the text. */
  lemma SearchUpToCase(a: string, b: string, f: Field)
    requires SameUpToCase(a, b)
    ensures SearchNumber(a, f) == SearchNumber(b, f)
  {
    forall p ensures NumberAt(a, p, f) == NumberAt(b, p, f) {
      NumberAtUpToCase(a, b, p, f);
    }
    LeftmostNumberUnique(b, f, SearchNumber(a, f), SearchNumber(b, f));
  }

  /** `re.IGNORECASE`: lower-casing the reply changes none of the five numbers. */
  lemma NumbersIgnoreCase(text: string)
    ensures ParseResponse(LowerText(text)).calories == ParseResponse(text).calories
    ensures ParseResponse(LowerText(text)).protein == ParseResponse(text).protein
    ensures ParseResponse(LowerText(text)).fat == ParseResponse(text).fat
    ensures ParseResponse(LowerText(text)).cholesterol == ParseResponse(text).cholesterol
    ensures ParseResponse(LowerText(text)).carbs == ParseResponse(text).carbs
  {
    LowerTextUpToCase(text);
    SearchUpToCase(LowerText(text), text, CaloriesField);
    SearchUpToCase(LowerText(text), text, ProteinField);
    SearchUpToCase(LowerText(text), text, FatField);
    SearchUpToCase(LowerText(text), text, CholesterolField);
    SearchUpToCase(LowerText(text), text, CarbsField);
  }

  /** No position matches, so the search reports nothing. */
  lemma SearchFindsNothing(text: string, f: Field)
    requires forall p :: 0 <= p <= |text| ==> NumberAt(text, p, f).None?
    ensures SearchNumber(text, f) == None
  {
    LeftmostNumberUnique(text, f, None, SearchNumber(text, f));
  }

  /** Protein, Fat and Carbs need `g` directly after the digits: a decimal reply loses the field. */
  lemma DecimalLosesField()
    ensures SearchNumber("Protein: 40.5g", ProteinField) == None
  {
    var t := "Protein: 40.5g";
    forall p | 0 <= p <= |t| ensures NumberAt(t, p, ProteinField).None? {
      if p == 0 {
        SkipWhileUnique(t, 8, IsSpace, 9);
        SkipWhileUnique(t, 9, IsDigit, 11);
        assert t[11] != 'g' && t[11] != 'G';
        assert Lower(t[11 + 0]) != "g"[0];
        assert !WordAt(t, 11, "g");
        assert NumberAfter(t, 8, "g") == None;
        assert NumberAt(t, 0, ProteinField) == NumberAfter(t, 8, "g");
      } else if p + 8 <= |t| {
        assert Lower(t[p + 0]) != ProteinField.key[0];
        assert !WordAt(t, p, ProteinField.key);
      }
    }
    SearchFindsNothing(t, ProteinField);
  }

  /** ... and so does a space between the digits and the unit. */
  lemma SpacedUnitLosesField()
    ensures SearchNumber("Protein: 40 g", ProteinField) == None
  {
    var t := "Protein: 40 g";
    forall p | 0 <= p <= |t| ensures NumberAt(t, p, ProteinField).None? {
      if p == 0 {
        SkipWhileUnique(t, 8, IsSpace, 9);
        SkipWhileUnique(t, 9, IsDigit, 11);
        assert t[11] != 'g' && t[11] != 'G';
        assert Lower(t[11 + 0]) != "g"[0];
        assert !WordAt(t, 11, "g");
        assert NumberAfter(t, 8, "g") == None;
        assert NumberAt(t, 0, ProteinField) == NumberAfter(t, 8, "g");
      } else if p + 8 <= |t| {
        assert Lower(t[p + 0]) != ProteinField.key[0];
        assert !WordAt(t, p, ProteinField.key);
      }
    }
    SearchFindsNothing(t, ProteinField);
  }
}

=== FILE: sums.dfy ===
/** Column sums over a sequence of rows, as pandas' `Series.sum()` computes them over a table
    column: zero for no rows, and independent of the order the rows were fetched in. */
module Sums {

  /** The sum of `f` over the rows, taken front to back. */
  function Sum<T>(rows: seq<T>, f: T -> real): real
  {
    if |rows| == 0 then 0.0 else f(rows[0]) + Sum(rows[1..], f)
  }

  /** Summing a concatenation is summing the parts. */
  lemma {:induction false} SumAppend<T>(a: seq<T>, b: seq<T>, f: T -> real)
    ensures Sum(a + b, f) == Sum(a, f) + Sum(b, f)
  {
    if |a| == 0 {
      assert a + b == b;
    } else {
      assert (a + b)[1..] == a[1..] + b;
      SumAppend(a[1..], b, f);
    }
  }

  /** A single row sums to its own contribution. */
  lemma SumSingle<T>(x: T, f: T -> real)
    ensures Sum([x], f) == f(x)
  {
    assert [x][1..] == [];
  }

  /** Every row contributes a non-negative amount, so the sum is non-negative. */
  lemma {:induction false} SumNonNegative<T>(rows: seq<T>, f: T -> real)
    requires forall i :: 0 <= i < |rows| ==> f(rows[i]) >= 0.0
    ensures Sum(rows, f) >= 0.0
  {
    if |rows| > 0 {
      assert forall i :: 0 <= i < |rows[1..]| ==> f(rows[1..][i]) == f(rows[i + 1]);
      SumNonNegative(rows[1..], f);
    }
  }

  /** Removing the row at `k` takes its contribution out of the sum. */
  lemma SumRemove<T>(rows: seq<T>, k: nat, f: T -> real)
    requires k < |rows|
    ensures Sum(rows, f) == f(rows[k]) + Sum(rows[..k] + rows[k + 1..], f)
  {
    assert rows == rows[..k] + ([rows[k]] + rows[k + 1..]);
    SumAppend(rows[..k], [rows[k]] + rows[k + 1..], f);
    SumAppend(rows[..k], rows[k + 1..], f);
    assert ([rows[k]] + rows[k + 1..])[1..] == rows[k + 1..];
  }

  /** Removing the row at `k` takes one copy of it out of the multiset of rows. */
  lemma MultisetRemove<T>(rows: seq<T>, k: nat)
    requires k < |rows|
    ensures multiset(rows[..k] + rows[k + 1..]) == multiset(rows) - multiset{rows[k]}
  {
    assert rows == rows[..k] + [rows[k]] + rows[k + 1..];
  }

  /** Where the first row of `a` sits in a reordering `b` of it. */
  lemma FirstInOther<T>(a: seq<T>, b: seq<T>) returns (k: nat)
    requires multiset(a) == multiset(b) && |a| > 0
    ensures k < |b| && b[k] == a[0]
  {
    assert a[0] in multiset(b) by { assert a[0] in multiset(a); }
    k :| 0 <= k < |b| && b[k] == a[0];
  }

  /** Taking the same row out of two reorderings of each other leaves reorderings of each other. */
  lemma RemoveMatching<T>(a: seq<T>, b: seq<T>, k: nat)
    requires multiset(a) == multiset(b) && |a| > 0 && k < |b| && b[k] == a[0]
    ensures multiset(a[1..]) == multiset(b[..k] + b[k + 1..])
  {
    MultisetRemove(a, 0);
    assert a[..0] + a[1..] == a[1..];
    MultisetRemove(b, k);
  }

  /** Two orderings of the same rows have the same sum. */
  lemma {:induction false} SumPermutation<T>(a: seq<T>, b: seq<T>, f: T -> real)
    requires multiset(a) == multiset(b)
    ensures Sum(a, f) == Sum(b, f)
  {
    if |a| == 0 {
      assert |multiset(b)| == 0;
    } else {
      var k := FirstInOther(a, b);
      RemoveMatching(a, b, k);
      SumPermutation(a[1..], b[..k] + b[k + 1..], f);
      SumRemove(b, k, f);
    }
  }
}

=== FILE: tracker_app.dfy ===
/** macro_tracker_app.py, the simpler variant of the tracker: four macros, number inputs for the
    amounts, and daily goals kept in a one-record Goals table with defaults. */
module TrackerApp {
  import opened Wrappers
  import opened Decimal
  import opened Records
  import opened Sums
  import MealEntry
  import Progress

  /** The column names of this variant's Meals and Goals tables. */
  const DateKey := "Date"
  const MealKey := "Meal"
  const CaloriesKey := "Calories"
  const CarbsKey := "Carbs (g)"
  const FatKey := "Fat (g)"
  const ProteinKey := "Protein (g)"

  /** The four tracked amounts: kcal, then grams. */
  datatype Amounts = Amounts(calories: real, carbs: real, fat: real, protein: real)

  /** A row of the meal table; the id is Airtable's own record id, which every record has. */
  datatype Row = Row(id: string, date: Option<Date>, meal: string, amounts: Amounts)

  /** The fields `save_meal_to_airtable` creates, every column written as given. */
  function SaveFields(date: Date, name: string, calories: real, carbs: real, fat: real, protein: real): (fields: Fields)
    ensures fields.Keys == {DateKey, MealKey, CaloriesKey, CarbsKey, FatKey, ProteinKey}
  {
    map[DateKey := Day(date), MealKey := Text(name), CaloriesKey := Number(calories), CarbsKey := Number(carbs),
        FatKey := Number(fat), ProteinKey := Number(protein)]
  }

  /** The row `get_meals_from_airtable` builds from a record: a missing meal name becomes "", a
      missing date no date, and a missing amount 0. */
  function RowOf(id: string, fields: Fields): (r: Row)
    ensures r.id == id
    ensures MealKey !in fields ==> r.meal == ""
    ensures DateKey !in fields ==> r.date == None
    ensures CaloriesKey !in fields ==> r.amounts.calories == 0.0
    ensures CarbsKey !in fields ==> r.amounts.carbs == 0.0
    ensures FatKey !in fields ==> r.amounts.fat == 0.0
    ensures ProteinKey !in fields ==> r.amounts.protein == 0.0
    ensures MealKey in fields && fields[MealKey].Text? ==> r.meal == fields[MealKey].text
    ensures DateKey in fields && fields[DateKey].Day? ==> r.date == Some(fields[DateKey].date)
    ensures CaloriesKey in fields && fields[CaloriesKey].Number? ==> r.amounts.calories == fields[CaloriesKey].number
    ensures CarbsKey in fields && fields[CarbsKey].Number? ==> r.amounts.carbs == fields[CarbsKey].number
    ensures FatKey in fields && fields[FatKey].Number? ==> r.amounts.fat == fields[FatKey].number
    ensures ProteinKey in fields && fields[ProteinKey].Number? ==> r.amounts.protein == fields[ProteinKey].number
  {
    Row(id, DateOrNone(fields, DateKey), TextOrEmpty(fields, MealKey),
        Amounts(NumberOr(fields, CaloriesKey, 0.0), NumberOr(fields, CarbsKey, 0.0), NumberOr(fields, FatKey, 0.0),
                NumberOr(fields, ProteinKey, 0.0)))
  }

  /** Each amount defaults on its own: taking one amount out of a record zeroes that amount alone
      and leaves the rest of the row as it was. */
  lemma MissingAmountZeroAlone(id: string, fields: Fields)
    ensures RowOf(id, fields - {CaloriesKey}) == RowOf(id, fields).(amounts := RowOf(id, fields).amounts.(calories := 0.0))
    ensures RowOf(id, fields - {CarbsKey}) == RowOf(id, fields).(amounts := RowOf(id, fields).amounts.(carbs := 0.0))
    ensures RowOf(id, fields - {FatKey}) == RowOf(id, fields).(amounts := RowOf(id, fields).amounts.(fat := 0.0))
    ensures RowOf(id, fields - {ProteinKey}) == RowOf(id, fields).(amounts := RowOf(id, fields).amounts.(protein := 0.0))
  {
    KeysDistinct();
    OneAmountGone(id, fields, CaloriesKey);
    OneAmountGone(id, fields, CarbsKey);
    OneAmountGone(id, fields, FatKey);
    OneAmountGone(id, fields, ProteinKey);
  }

  /** The six column names differ. */
  lemma KeysDistinct()
    ensures DateKey != MealKey && DateKey != CaloriesKey && DateKey != CarbsKey && DateKey != FatKey && DateKey != ProteinKey
    ensures MealKey != CaloriesKey && MealKey != CarbsKey && MealKey != FatKey && MealKey != ProteinKey
    ensures CaloriesKey != CarbsKey && CaloriesKey != FatKey && CaloriesKey != ProteinKey
    ensures CarbsKey != FatKey && CarbsKey != ProteinKey && FatKey != ProteinKey
  {
  }

  /** How each column of the row reads once `gone` is taken out of the record. */
  lemma OneAmountGone(id: string, fields: Fields, gone: string)
    ensures RowOf(id, fields - {gone}).id == id
    ensures RowOf(id, fields - {gone}).date == if gone == DateKey then None else RowOf(id, fields).date
    ensures RowOf(id, fields - {gone}).meal == if gone == MealKey then "" else RowOf(id, fields).meal
    ensures RowOf(id, fields - {gone}).amounts.calories == if gone == CaloriesKey then 0.0 else RowOf(id, fields).amounts.calories
    ensures RowOf(id, fields - {gone}).amounts.carbs == if gone == CarbsKey then 0.0 else RowOf(id, fields).amounts.carbs
    ensures RowOf(id, fields - {gone}).amounts.fat == if gone == FatKey then 0.0 else RowOf(id, fields).amounts.fat
    ensures RowOf(id, fields - {gone}).amounts.protein == if gone == ProteinKey then 0.0 else RowOf(id, fields).amounts.protein
  {
    ReadsWithout(fields, gone, DateKey, 0.0);
    ReadsWithout(fields, gone, MealKey, 0.0);
    ReadsWithout(fields, gone, CaloriesKey, 0.0);
    ReadsWithout(fields, gone, CarbsKey, 0.0);
    ReadsWithout(fields, gone, FatKey, 0.0);
    ReadsWithout(fields, gone, ProteinKey, 0.0);
  }

  const AddError := "Please ensure all meal details are filled correctly and values are non-negative."

  datatype AddOutcome = Saved(fields: Fields) | Rejected(error: string)

  /** The "Add Meal" button: saved when the name is not empty and no amount is negative, otherwise
      refused with one error. */
  function AddMeal(name: string, date: Date, calories: real, carbs: real, fat: real, protein: real): (r: AddOutcome)
    ensures r.Saved? <==> name != "" && calories >= 0.0 && carbs >= 0.0 && fat >= 0.0 && protein >= 0.0
    ensures r.Rejected? ==> r.error == AddError
  {
    if name != "" && calories >= 0.0 && carbs >= 0.0 && fat >= 0.0 && protein >= 0.0 then
      Saved(SaveFields(date, name, calories, carbs, fat, protein))
    else
      Rejected(AddError)
  }

  /** A meal that was saved reads back, under whatever id Airtable gave it, exactly as entered. */
  lemma AddThenFetch(id: string, name: string, date: Date, calories: real, carbs: real, fat: real, protein: real)
    requires AddMeal(name, date, calories, carbs, fat, protein).Saved?
    ensures RowOf(id, AddMeal(name, date, calories, carbs, fat, protein).fields)
            == Row(id, Some(date), name, Amounts(calories, carbs, fat, protein))
  {
  }

  /** For whole, non-negative amounts the two apps agree on whether a meal is saved: only the name
      decides. */
  lemma VariantsAgree(name: string, date: Date, calories: nat, carbs: nat, fat: nat, protein: nat)
    ensures AddMeal(name, date, calories as real, carbs as real, fat as real, protein as real).Saved?
            <==> MealEntry.AddMeal(MealEntry.MealForm(name, ShowNat(calories), ShowNat(protein), ShowNat(fat), "",
                                                      ShowNat(carbs)), date).Saved?
  {
    MealEntry.WholeAmountsValid(name, calories, protein, fat, carbs);
  }

  /** The dashboard's daily totals: the sum of each amount column over the day's rows. */
  function Totals(rows: seq<Row>): (t: Amounts)
    ensures |rows| == 0 ==> t == Amounts(0.0, 0.0, 0.0, 0.0)
  {
    Amounts(Sum(rows, (r: Row) => r.amounts.calories), Sum(rows, (r: Row) => r.amounts.carbs),
            Sum(rows, (r: Row) => r.amounts.fat), Sum(rows, (r: Row) => r.amounts.protein))
  }

  /** The totals do not depend on the order the rows were fetched in. */
  lemma TotalsPermutation(a: seq<Row>, b: seq<Row>)
    requires multiset(a) == multiset(b)
    ensures Totals(a) == Totals(b)
  {
    SumPermutation(a, b, (r: Row) => r.amounts.calories);
    SumPermutation(a, b, (r: Row) => r.amounts.carbs);
    SumPermutation(a, b, (r: Row) => r.amounts.fat);
    SumPermutation(a, b, (r: Row) => r.amounts.protein);
  }

  /** One more meal adds exactly its own amounts to the totals. */
  lemma TotalsAddMeal(rows: seq<Row>, row: Row)
    ensures Totals(rows + [row])
            == Amounts(Totals(rows).calories + row.amounts.calories, Totals(rows).carbs + row.amounts.carbs,
                       Totals(rows).fat + row.amounts.fat, Totals(rows).protein + row.amounts.protein)
  {
    SumAppend(rows, [row], (r: Row) => r.amounts.calories);
    SumAppend(rows, [row], (r: Row) => r.amounts.carbs);
    SumAppend(rows, [row], (r: Row) => r.amounts.fat);
    SumAppend(rows, [row], (r: Row) => r.amounts.protein);
    SumSingle(row, (r: Row) => r.amounts.calories);
    SumSingle(row, (r: Row) => r.amounts.carbs);
    SumSingle(row, (r: Row) => r.amounts.fat);
    SumSingle(row, (r: Row) => r.amounts.protein);
  }

  /** The daily goals. */
  datatype Goals = Goals(calories: real, carbs: real, fat: real, protein: real)

  const DefaultGoals := Goals(2000.0, 250.0, 70.0, 150.0)

  /** The fields of the default goals record created when the Goals table is empty. */
  function GoalFields(g: Goals): Fields {
    map[CaloriesKey := Number(g.calories), CarbsKey := Number(g.carbs), FatKey := Number(g.fat),
        ProteinKey := Number(g.protein)]
  }

  /** What reading the Goals table gave: at most one record (id and fields), or an error. */
  datatype GoalsFetch = GoalRecords(records: seq<(string, Fields)>) | FetchFailed

  /** The goals loaded, and the goals record id remembered for later updates. */
  datatype LoadedGoals = LoadedGoals(goals: Goals, recordId: Option<string>)

  /** `get_macro_goals_from_airtable`: each goal missing from the record falls back to its own
      default; with no record, or when the read fails, all four defaults apply and the remembered
      record id stays as it was. */
  function LoadGoals(fetch: GoalsFetch, knownId: Option<string>): (r: LoadedGoals)
    ensures fetch.FetchFailed? ==> r == LoadedGoals(DefaultGoals, knownId)
    ensures fetch.GoalRecords? && |fetch.records| == 0 ==> r == LoadedGoals(DefaultGoals, knownId)
    ensures fetch.GoalRecords? && |fetch.records| > 0 ==> r.recordId == Some(fetch.records[0].0)
    ensures fetch.GoalRecords? && |fetch.records| > 0 && CaloriesKey !in fetch.records[0].1 ==> r.goals.calories == 2000.0
    ensures fetch.GoalRecords? && |fetch.records| > 0 && CarbsKey !in fetch.records[0].1 ==> r.goals.carbs == 250.0
    ensures fetch.GoalRecords? && |fetch.records| > 0 && FatKey !in fetch.records[0].1 ==> r.goals.fat == 70.0
    ensures fetch.GoalRecords? && |fetch.records| > 0 && ProteinKey !in fetch.records[0].1 ==> r.goals.protein == 150.0
    ensures fetch.GoalRecords? && |fetch.records| > 0 && CaloriesKey in fetch.records[0].1 && fetch.records[0].1[CaloriesKey].Number?
            ==> r.goals.calories == fetch.records[0].1[CaloriesKey].number
    ensures fetch.GoalRecords? && |fetch.records| > 0 && CarbsKey in fetch.records[0].1 && fetch.records[0].1[CarbsKey].Number?
            ==> r.goals.carbs == fetch.records[0].1[CarbsKey].number
    ensures fetch.GoalRecords? && |fetch.records| > 0 && FatKey in fetch.records[0].1 && fetch.records[0].1[FatKey].Number?
            ==> r.goals.fat == fetch.records[0].1[FatKey].number
    ensures fetch.GoalRecords? && |fetch.records| > 0 && ProteinKey in fetch.records[0].1 && fetch.records[0].1[ProteinKey].Number?
            ==> r.goals.protein == fetch.records[0].1[ProteinKey].number
  {
    match fetch
    case FetchFailed => LoadedGoals(DefaultGoals, knownId)
    case GoalRecords(records) =>
      if |records| == 0 then LoadedGoals(DefaultGoals, knownId)
      else
        var fields := records[0].1;
        LoadedGoals(Goals(NumberOr(fields, CaloriesKey, 2000.0), NumberOr(fields, CarbsKey, 250.0),
                          NumberOr(fields, FatKey, 70.0), NumberOr(fields, ProteinKey, 150.0)),
                    Some(records[0].0))
  }

  /** Each goal defaults on its own: taking one goal out of the record resets that goal alone to
      its default and leaves the other three, and the remembered id, as they were. */
  lemma MissingGoalDefaultsAlone(id: string, fields: Fields, knownId: Option<string>)
    ensures LoadGoals(GoalRecords([(id, fields - {CaloriesKey})]), knownId)
            == LoadGoals(GoalRecords([(id, fields)]), knownId).(goals := LoadGoals(GoalRecords([(id, fields)]), knownId).goals.(calories := 2000.0))
    ensures LoadGoals(GoalRecords([(id, fields - {CarbsKey})]), knownId)
            == LoadGoals(GoalRecords([(id, fields)]), knownId).(goals := LoadGoals(GoalRecords([(id, fields)]), knownId).goals.(carbs := 250.0))
    ensures LoadGoals(GoalRecords([(id, fields - {FatKey})]), knownId)
            == LoadGoals(GoalRecords([(id, fields)]), knownId).(goals := LoadGoals(GoalRecords([(id, fields)]), knownId).goals.(fat := 70.0))
    ensures LoadGoals(GoalRecords([(id, fields - {ProteinKey})]), knownId)
            == LoadGoals(GoalRecords([(id, fields)]), knownId).(goals := LoadGoals(GoalRecords([(id, fields)]), knownId).goals.(protein := 150.0))
  {
    KeysDistinct();
    OneGoalGone(id, fields, CaloriesKey, knownId);
    OneGoalGone(id, fields, CarbsKey, knownId);
    OneGoalGone(id, fields, FatKey, knownId);
    OneGoalGone(id, fields, ProteinKey, knownId);
  }

  /** How each goal loads once `gone` is taken out of the record. */
  lemma OneGoalGone(id: string, fields: Fields, gone: string, knownId: Option<string>)
    ensures LoadGoals(GoalRecords([(id, fields - {gone})]), knownId).recordId == Some(id)
    ensures LoadGoals(GoalRecords([(id, fields - {gone})]), knownId).goals.calories
            == if gone == CaloriesKey then 2000.0 else LoadGoals(GoalRecords([(id, fields)]), knownId).goals.calories
    ensures LoadGoals(GoalRecords([(id, fields - {gone})]), knownId).goals.carbs
            == if gone == CarbsKey then 250.0 else LoadGoals(GoalRecords([(id, fields)]), knownId).goals.carbs
    ensures LoadGoals(GoalRecords([(id, fields - {gone})]), knownId).goals.fat
            == if gone == FatKey then 70.0 else LoadGoals(GoalRecords([(id, fields)]), knownId).goals.fat
    ensures LoadGoals(GoalRecords([(id, fields - {gone})]), knownId).goals.protein
            == if gone == ProteinKey then 150.0 else LoadGoals(GoalRecords([(id, fields)]), knownId).goals.protein
  {
    ReadsWithout(fields, gone, CaloriesKey, 2000.0);
    ReadsWithout(fields, gone, CarbsKey, 250.0);
    ReadsWithout(fields, gone, FatKey, 70.0);
    ReadsWithout(fields, gone, ProteinKey, 150.0);
  }

  /** `initialize_airtable_goals`: the default goals record to create, exactly when the Goals table
      was read and found empty. */
  function InitialGoalRecord(fetch: GoalsFetch): (r: Option<Fields>)
    ensures r.Some? <==> fetch == GoalRecords([])
    ensures r.Some? ==> r.value == GoalFields(DefaultGoals)
  {
    if fetch == GoalRecords([]) then Some(GoalFields(DefaultGoals)) else None
  }

  /** Goals written as a whole record read back as themselves, whatever the record held before. */
  lemma GoalsWriteThenLoad(id: string, before: Fields, g: Goals, knownId: Option<string>)
    ensures LoadGoals(GoalRecords([(id, ApplyUpdate(before, GoalFields(g)))]), knownId) == LoadedGoals(g, Some(id))
  {
  }

  /** The record created for an empty table loads as the defaults, the same goals the empty table
      itself gave. */
  lemma InitialGoalsLoad(id: string, knownId: Option<string>)
    ensures LoadGoals(GoalRecords([(id, InitialGoalRecord(GoalRecords([])).value)]), knownId).goals
            == LoadGoals(GoalRecords([]), knownId).goals == DefaultGoals
  {
    GoalsWriteThenLoad(id, map[], DefaultGoals, knownId);
    assert ApplyUpdate(map[], GoalFields(DefaultGoals)) == GoalFields(DefaultGoals);
  }

  /** What "Update Goals" does: refuse when no goals record id is known, else overwrite all four
      goals of that record. */
  datatype GoalsUpdate = NoGoalsRecord | WriteGoals(id: string, fields: Fields)

  function UpdateGoals(knownId: Option<string>, g: Goals): (r: GoalsUpdate)
    ensures r.NoGoalsRecord? <==> knownId.None? || knownId.value == ""
    ensures r.WriteGoals? ==> r.id == knownId.value && r.fields == GoalFields(g)
  {
    match knownId
    case None => NoGoalsRecord
    case Some(id) => if id == "" then NoGoalsRecord else WriteGoals(id, GoalFields(g))
  }

  /** The four progress displays of the dashboard: calories, carbohydrates, fat and protein, each
      showing that day's total against its own goal. */
  function Dashboard(totals: Amounts, goals: Goals): (vs: seq<Progress.ProgressView>)
    ensures |vs| == 4
    ensures vs[0].title == "Calories" && vs[0].unit == "kcal" && vs[0].current == totals.calories && vs[0].goal == goals.calories
    ensures vs[1].title == "Carbohydrates" && vs[1].unit == "g" && vs[1].current == totals.carbs && vs[1].goal == goals.carbs
    ensures vs[2].title == "Fat" && vs[2].unit == "g" && vs[2].current == totals.fat && vs[2].goal == goals.fat
    ensures vs[3].title == "Protein" && vs[3].unit == "g" && vs[3].current == totals.protein && vs[3].goal == goals.protein
    ensures forall i :: 0 <= i < |vs| ==> Progress.Shows(vs[i])
  {
    [Progress.DisplayProgress("Calories", "kcal", totals.calories, goals.calories),
     Progress.DisplayProgress("Carbohydrates", "g", totals.carbs, goals.carbs),
     Progress.DisplayProgress("Fat", "g", totals.fat, goals.fat),
     Progress.DisplayProgress("Protein", "g", totals.protein, goals.protein)]
  }

  /** A day whose totals reach every goal shows four full bars. */
  lemma GoalsReachedFillBars(rows: seq<Row>, goals: Goals)
    requires goals.calories > 0.0 && goals.carbs > 0.0 && goals.fat > 0.0 && goals.protein > 0.0
    requires Totals(rows).calories >= goals.calories && Totals(rows).carbs >= goals.carbs
    requires Totals(rows).fat >= goals.fat && Totals(rows).protein >= goals.protein
    ensures forall i :: 0 <= i < 4 ==> Dashboard(Totals(rows), goals)[i].bar == 1.0
  {
    var vs := Dashboard(Totals(rows), goals);
    assert vs[0].bar == 1.0 && vs[1].bar == 1.0 && vs[2].bar == 1.0 && vs[3].bar == 1.0;
  }
}

=== FILE: wrappers.dfy ===
/** The optional value used for every field that a scan or a parse may fail to produce:
    Python's `None` becomes `None`, a present value `v` becomes `Some(v)`. */
module Wrappers {

  datatype Option<+T> = None | Some(value: T) {

    /** The value, or `default` when absent (Python's `x if x is not None else default`). */
    function GetOr(default: T): (r: T)
      ensures Some? ==> r == value
      ensures None? ==> r == default
    {
      match this
      case Some(v) => v
      case None => default
    }
  }
}
